=== FILE: README.md ===
# Admin console core, modelled in Dafny

This project models the logic of the expense tracker's admin console: the
authenticated request client, the error classification tables, the sign-up
and sign-in handlers, the authentication gate and menu of the root layout,
the in-memory list operations of the users, categories and expenses screens,
and the relative-date label. Every piece is a pure function over explicit
inputs and outputs:

- `localStorage` is a map from keys to items (`Storage.Store`). An item is a
  raw text or a value stored through `JSON.stringify`.
- The network is a script `Api.Network = nat -> Reply`: the n-th fetch of a
  session receives `net(n)`, and every fetch issued is appended to the
  session's log. A reply is `Unreachable` (the browser's `Failed to fetch`)
  or a response with a status, an optional JSON body and an optional
  `content-length` header.
- `window.location.href` and `router.push` become a location or redirect
  field of the result. The answer to `confirm` is a boolean input, and the
  text given to `alert` is an output.
- JavaScript values follow `Js.Json`. Truthiness, property access
  (`undefined` on non-objects), `String(...)`, `JSON.stringify`,
  `String.prototype.includes`, `trim`, `toLowerCase`, UTF-16 `length` and
  object spread (`{...o, key: v}`) are written out in module `Js`.
- The request client's retry loop has no bound in the source. `Api.Request`
  follows it for at most `fuel` attempts and reports `Diverged` when the
  source would still be running. The pages use the corrected client
  `Api.RequestOnce` (see Findings).
- The sign-up form's error line is a `RegisterPage.Notice`: cleared, a
  text, or the connection-failure text for a given API URL. `Shown` renders
  it to the exact string the page sets.
- The typed records that the screens keep (`User`, `Category`, `Expense`)
  come from a `cast` parameter. It plays the part of the unchecked TypeScript
  type assertion on server data. A category also keeps the object the
  server sent (`row`), because the edit form starts from a copy of that
  object and sends all of it back.

Modules: `Js`, `Storage`, `Errors` (thrown values), `Api`, `ErrorHandler`,
`LoginPage`, `RegisterPage`, `Layout`, `Lists` (filter, map and subsequence
facts), `UsersPage`, `CategoriesPage`, `ExpensesPage` and `Dates`.

Behaviour of the request client that the model keeps as the code has it:

- After a successful refresh, a request that met a 401 calls itself again,
  with no bound on the number of rounds (`admin/lib/api.ts:87`); see Findings.
- A refresh stores only the new `accessToken` (`admin/lib/api.ts:84`). A
  refresh token in the answer is not kept.
- A failed refresh removes `token` and `user` and keeps `refreshToken`
  (`admin/lib/api.ts:89-90`).
- The refresh call sends no stored token, only `credentials: 'include'`
  (`admin/lib/api.ts:51-54`).

The source also declares two distinct `ApiError` classes, one in
`admin/lib/api.ts` and one in `admin/lib/error-handler.ts`. `Errors.Thrown`
tells them apart, so the status table of `handleApiError` never applies to
errors thrown by the request client.

## Model

| member | source | states |
|---|---|---|
| Api.ApiUrl | admin/lib/api.ts:2 | the base URL is the environment value when it is set and non-empty, `http://localhost:3000` otherwise |
| Api.Headers | admin/lib/api.ts:68-74 | the merged headers always hold `Content-Type` (`application/json` unless the caller sets it); `Authorization: Bearer <token>` is present exactly when the stored token is truthy; caller headers override both |
| Api.Request | admin/lib/api.ts:64-112 | the client as written: earlier fetches are kept; the first fetch goes to `API_URL + endpoint` with the stored token's headers; a run still going after `fuel` attempts has made exactly two fetches per attempt; the location changes only to `/login`, together with the session-expired error |
| Api.RequestExchange | admin/lib/api.ts:76-94 | the fetches of a request alternate between attempts of the same endpoint and options and refreshes; a refresh only follows a 401, and a new attempt only follows a refresh that renewed the token |
| Api.RequestKeepsOtherKeys | admin/lib/api.ts:81-94 | a request changes no store key other than `token` and `user`, however many refreshes it makes |
| Api.RequestOnce | admin/lib/api.ts:64-112 | the corrected client always settles after one to three fetches; the first is the attempt with the stored token's headers; the location changes only to `/login`, together with the session-expired error |
| Api.RequestOnceExchange | admin/lib/api.ts:76-94 | the corrected client's fetches follow the same attempt/refresh alternation |
| Api.RequestOnceKeepsOtherKeys | admin/lib/api.ts:81-94 | the corrected client changes no store key other than `token` and `user` |
| Api.RetryAfterRefresh | admin/lib/api.ts:81-87 | after a 401 and a successful refresh, the stored token becomes the new `accessToken` and the refresh token key is neither added nor removed; the result is that of a fresh request to the same endpoint with the same options |
| Api.RetryCarriesNewToken | admin/lib/api.ts:84-87 | the retry goes to the same URL and carries `Bearer <new accessToken>` |
| Api.RefreshFailureExpires | admin/lib/api.ts:88-93 | a 401 whose refresh fails removes exactly `token` and `user`, keeps every other key, redirects to `/login`, and throws a status-401 session-expired error after exactly two fetches |
| Api.ErrorRecord | admin/lib/api.ts:96-104 | a non-2xx, non-401 answer throws an error with the original status, the payload's `message` or `Ошибка запроса`, and the payload (`{}` when the body is not JSON); a `null` payload throws a TypeError instead; the store is untouched |
| Api.SuccessPayload | admin/lib/api.ts:106-111 | a 2xx answer with status 204 or `content-length: 0` yields `{}`; any other 2xx answer yields its parsed body, or a parse error when it has none |
| Api.EndlessRenewalShift | admin/lib/api.ts:81-87 | an endless 401/renewal pattern still holds two fetches later |
| Api.EndlessServerHangsSource | admin/lib/api.ts:81-87 | against a server that always answers 401 and always renews, the client as written never settles, whatever the fuel |
| Api.EndlessServerExpiresOnce | admin/lib/api.ts:81-93 | the corrected client, against the same server, ends the session after three fetches with the session-expired error and a redirect to `/login` |
| Api.RequestOnceAgrees | admin/lib/api.ts:64-112 | on every exchange that needs at most one refresh, the corrected client and the source produce the same result, session and fetches |
| Api.AuthErrorShapes | admin/lib/api.ts:19-61 | `login` and `register` always settle after one fetch, and when they fail they throw only plain errors with no status; a failed `refresh` throws an error with the refresh response's status; none of them touches the store |
| Api.Login | admin/lib/api.ts:19-33 | `login` makes exactly one fetch, a POST whose body is the serialised email and password, and leaves the store alone; it settles, returning the body exactly when the answer is a 2xx with a JSON body; an unreachable server throws the fetch failure, a `null` error body the null-member error, and any other failure a plain error carrying the body's `message` when truthy and the sign-in fallback text otherwise |
| Api.Register | admin/lib/api.ts:35-48 | `register` makes exactly one fetch, a POST whose body is the serialised email, password and name, and leaves the store alone; it settles, returning the body exactly when the answer is a 2xx with a JSON body; an unreachable server throws the fetch failure, a `null` error body the null-member error, and any other failure a plain error carrying the body's `message` when truthy and the sign-up fallback text otherwise |
| Api.ListPayload | admin/lib/api.ts:117 | an array payload is kept; otherwise a truthy resource-named member is returned whatever its shape, else a truthy `data` member, else `[]` |
| Api.GetList | admin/lib/api.ts:115-118 | a list load is one corrected request without a verb to the endpoint; it fails exactly when that request fails, with the same error, and otherwise returns the unwrapped payload |
| Api.ListNormalisation | admin/lib/api.ts:115-161 | an array payload is returned as is; a truthy resource-named member wins, even over an array under `data` and even when it is no array; otherwise a truthy `data` member is returned (`{"data":[1]}` gives `[1]`); with neither truthy the result is `[]` |
| Api.LoadFallback | admin/app/users/page.tsx:26-36 | a load that throws leaves no rows; an array payload, bare, under the resource name or under `data`, gives its items; a payload that unwraps to anything but an array gives no rows |
| Api.Mutate | admin/lib/api.ts:124-152 | an update or create makes at least one fetch, and the first goes to `API_URL + endpoint` with its verb and the serialised body |
| Api.Remove | admin/lib/api.ts:131-172 | a deletion makes at least one fetch, and the first goes to `API_URL + endpoint` with `DELETE` and no body |
| Api.MutationFetches | admin/lib/api.ts:124-133 | an update or delete fetches `API_URL + collection + "/" + id` with its verb and the serialised body (none for DELETE), with JSON content type and a bearer header exactly when a token is stored |
| Api.ReportsEndpoint | admin/lib/api.ts:178-181 | the reports URL gets `?period=<p>` appended exactly when the period is truthy |
| ErrorHandler.HandleApiError | admin/lib/error-handler.ts:14-48 | only the handler's own 401 error changes the store or the location, and it clears `token` and `user` and goes to `/login`; the handler's own errors always get a non-empty message |
| ErrorHandler.StatusTable | admin/lib/error-handler.ts:15-41 | 401, 403, 404, 422 and 500 map to their fixed texts, and 401 also signs out; any other status shows the message, or `Произошла ошибка.` when it is empty |
| ErrorHandler.OtherThrownValues | admin/lib/error-handler.ts:43-47 | any other `Error` shows its own message, even an empty one; a non-`Error` value shows `Неизвестная ошибка.`; neither touches the store or the location |
| ErrorHandler.ErrorInstancesShowMessage | admin/lib/error-handler.ts:43-45 | an `Error` that is not the handler's `ApiError` is shown by its message with nothing else changed |
| ErrorHandler.ClientErrorsBypassTable | admin/lib/error-handler.ts:15 | every error the request client throws, its own 401 included, misses the handler's `instanceof` test and is shown by its bare message without signing out |
| LoginPage.HandleLogin | admin/app/login/page.tsx:15-47 | the handler makes exactly the login fetch to the URL taken from `NEXT_PUBLIC_API_URL` and always ends with `loading` off; when that call returns a value with a truthy `accessToken` it stores that token as `token`, goes to `/` and shows no error; when the call throws it shows the catch block's text for that error; a returned value without a token shows the missing-token text (or the text for reading a member of `null`); without a token nothing is stored and the location is kept |
| LoginPage.Begin | admin/app/login/page.tsx:17-18 | an attempt starts with the error cleared and `loading` on |
| LoginPage.StoresTokens | admin/app/login/page.tsx:23-30 | a truthy `accessToken` is stored as `token`; `refreshToken` is stored only when truthy; `user` is stored; the page goes to `/`; no error is shown |
| LoginPage.MissingTokenIsError | admin/app/login/page.tsx:31-32 | a response without a truthy `accessToken` shows `Нет токена в ответе` and leaves the session alone |
| LoginPage.ClassificationOrder | admin/app/login/page.tsx:37-43 | the catch block checks status 401 first, then a message containing `Failed to fetch`, then shows the message or `Ошибка входа` |
| LoginPage.WrongCredentialsUnreachable | admin/app/login/page.tsx:37-38 | the status-401 branch is dead because `api.login` throws errors without a status; the wrong-credentials text can appear only when `api.login` threw, through a server message that is that text |
| LoginPage.LoadingLifecycle | admin/app/login/page.tsx:17-46 | `loading` is on during the attempt and off once it settles, whatever the outcome |
| RegisterPage.Validate | admin/app/register/page.tsx:36-59 | an empty field gives the all-fields text; any refusal is one of the five check texts; an accepted form is filled, its passwords agree and have at least 6 units, and its trimmed name has at least 2 |
| RegisterPage.Submit | admin/app/register/page.tsx:61-146 | a refused form shows the check text and sends nothing; an accepted one sends the trimmed name to the register endpoint of the URL taken from `NEXT_PUBLIC_API_URL` and ends with `loading` as the unlocking choice leaves it; it moves to `/` exactly when that call returned a value with a truthy `accessToken`, then showing success and no error, and otherwise shows the connection-failure text for that same URL with the success flag as it was |
| RegisterPage.HandleRegisterAsWritten | admin/app/register/page.tsx:61-146 | as written, a refused form sends nothing, and an accepted one makes exactly the register fetch and leaves `loading` on, whatever the answer |
| RegisterPage.HandleRegister | admin/app/register/page.tsx:61-146 | corrected, a refused form sends nothing, and an accepted one makes exactly the register fetch and ends with `loading` off; it moves to `/` with success shown exactly when the call returned a truthy `accessToken`, and otherwise shows the connection-failure text |
| RegisterPage.FirstFailure | admin/app/register/page.tsx:36-59 | the first failing check's text is returned, and none is returned exactly when all checks pass |
| RegisterPage.ValidateIsFirstFailure | admin/app/register/page.tsx:36-59 | the validation chain is the first failure among the checks in their order: filled fields, matching passwords, length at least 6, email, trimmed name length at least 2 |
| RegisterPage.ValidateAcceptsIff | admin/app/register/page.tsx:36-59 | a form is accepted exactly when all fields are filled, the passwords match and have at least 6 UTF-16 units, the email contains both `@` and `.` anywhere, and the trimmed name has at least 2 units |
| RegisterPage.EmptyFieldWins | admin/app/register/page.tsx:36-39 | any empty field gives the all-fields-required text, whatever else is wrong |
| RegisterPage.WhitespaceNameRejected | admin/app/register/page.tsx:36-59 | a name of white space only passes the emptiness test but fails the name-length test |
| RegisterPage.InvalidFormSendsNothing | admin/app/register/page.tsx:36-59 | a rejected form shows its error and issues no fetch |
| RegisterPage.SendsTrimmedName | admin/app/register/page.tsx:71 | an accepted form makes exactly one fetch, to the register endpoint of the configured API URL, carrying the trimmed name |
| RegisterPage.StoresSession | admin/app/register/page.tsx:75-83 | a truthy `accessToken` stores `token` and `user`, never stores a refresh token, sets success and schedules `/` |
| RegisterPage.StatusTable | admin/app/register/page.tsx:126-135 | 409 and 400 have fixed texts; 422 joins an `errors` array with `, `, shows the validation text without `errors`, and throws when `errors` is not an array |
| RegisterPage.StatuslessErrorsReportConnection | admin/app/register/page.tsx:97-142 | a plain `Error`, whatever its message, is reported as a connection failure naming the API URL |
| RegisterPage.ConnectionTextNamesUrl | admin/app/register/page.tsx:137-142 | the connection-failure text starts with its lead-in, names the API base URL right after it, and ends with the list of likely causes |
| RegisterPage.CaughtPlainReportsConnection | admin/app/register/page.tsx:88-142 | the catch block shows the connection-failure text for any plain error and keeps the success flag |
| RegisterPage.Finish | admin/app/register/page.tsx:71-146 | after the call settles the page issues no further fetch and does not navigate directly; a scheduled move goes only to `/` and only after a success |
| RegisterPage.FinishReportsConnection | admin/app/register/page.tsx:75-146 | when the call can throw only plain errors, the page moves to `/` exactly when a truthy `accessToken` came back, then showing success and no error; every other outcome shows the connection-failure text and keeps the success flag |
| RegisterPage.FailuresReportConnection | admin/app/register/page.tsx:71-146 | for an accepted form and any server behaviour, the page either registers or shows the connection-failure text |
| RegisterPage.FailedRegistrationLocksForm | admin/app/register/page.tsx:61-146 | as written, an unreachable server leaves `loading` on, with the connection-failure text shown |
| RegisterPage.FailedRegistrationUnlocksForm | admin/app/register/page.tsx:61-146 | with the form unlocked after the call, every settled attempt leaves `loading` off |
| Layout.IsPublic | admin/app/layout.tsx:22-24 | a public path is a non-root path starting with `/` and without a trailing slash |
| Layout.PublicPathsExact | admin/app/layout.tsx:22-24 | public paths match exactly: any extension of `/login` or `/register`, their trailing-slash forms and `/` itself are private |
| Layout.CheckAuth | admin/app/layout.tsx:19-63 | the store changes only when a token is present on a private page whose stored user does not parse; a visitor is authenticated only with a token and an untouched store; a user is loaded only when authenticated on a private page |
| Layout.GateTable | admin/app/layout.tsx:20-62 | the four cases of the decision table: no token on a private page goes to `/login`; a token on a public page goes to `/`; a token on a private page loads the user or signs out to `/login`; no token on a public page stays |
| Layout.PrivatePagesNeedToken | admin/app/layout.tsx:25-113 | on a private page the gate either authenticates or redirects to `/login`, and the header is rendered only with a token and a loaded user |
| Layout.StoredUserShapes | admin/app/layout.tsx:43-58 | with no stored user, `'{}'` is parsed and the visitor passes with an empty profile; a user stored as the text `undefined` fails to parse and signs the visitor out |
| Layout.FrameFor | admin/app/layout.tsx:68-113 | the bare page is rendered exactly on the public pages; the header is rendered exactly on a private page with the gate passed |
| Layout.VisibleNav | admin/app/layout.tsx:146-151 | an entry is shown exactly when it is in the menu and is not admin-only, or the user is an admin |
| Layout.NavByRole | admin/app/layout.tsx:135-151 | an admin sees all five entries; anybody else sees the same order without `/users` |
| Layout.Logout | admin/app/layout.tsx:129-133 | logout removes exactly `token` and `user`, keeps every other key, and goes to `/login` |
| UsersPage.Toggle | admin/app/users/page.tsx:52 | the toggled role always differs from the old one |
| UsersPage.ToggleInvolution | admin/app/users/page.tsx:52 | toggling twice restores the role, and the wire names differ after one toggle |
| UsersPage.FetchUsers | admin/app/users/page.tsx:26-36 | the list holds, in order, the cast of each row of the load, which is empty when the load fails or unwraps to no array |
| UsersPage.WithoutId | admin/app/users/page.tsx:43 | a user is kept exactly when it was listed and has another id |
| UsersPage.DeleteUser | admin/app/users/page.tsx:38-48 | a declined confirm changes nothing and sends nothing; an accepted one sends a DELETE to `/api/admin/users/<id>`, and the session is what that removal leaves; the alert is shown exactly when that call fails; on success the id is dropped, on failure the list is kept |
| UsersPage.DeleteKeepsOrder | admin/app/users/page.tsx:43 | deletion keeps the other users in order and drops exactly as many entries as carry the id |
| UsersPage.WithRole | admin/app/users/page.tsx:54-56 | the length is kept; users with the id get the new role with every other field unchanged; everybody else is unchanged |
| UsersPage.ToggleAdmin | admin/app/users/page.tsx:50-61 | sends a PUT of `{"role": <flipped>}` to the user's URL, and the session is what that call leaves; the alert is shown exactly when that call fails; on success only the target id's role flips; on failure the list is kept |
| UsersPage.ToggleTwiceRestores | admin/app/users/page.tsx:50-56 | two toggles of the same user restore the list |
| UsersPage.FilteredUsers | admin/app/users/page.tsx:63-69 | a user is listed exactly when it matches the lowercased query in the email or the name |
| UsersPage.SearchKeepsOrder | admin/app/users/page.tsx:63-69 | the search result is an order-preserving subsequence holding every matching entry as often as it is listed, and an empty query keeps everybody |
| CategoriesPage.LoadCategories | admin/app/categories/page.tsx:21-31 | the list holds, in order, one category per row of the load, each keeping its row as sent, and the forms are untouched |
| CategoriesPage.CreateCategory | admin/app/categories/page.tsx:33-47 | a blank name alerts and sends nothing; otherwise it POSTs the serialised form to the collection URL, and the session is what that call leaves; the failure alert is shown exactly when that call fails; on success the server's category is appended to the unchanged list and the form cleared, on failure the screen is kept |
| CategoriesPage.CreateAppends | admin/app/categories/page.tsx:40-42 | a successful creation yields the old list followed by the server's category |
| CategoriesPage.BlankNamesRefused | admin/app/categories/page.tsx:33-53 | a white-space name is refused by both forms without a fetch |
| CategoriesPage.Replace | admin/app/categories/page.tsx:59-61 | the length is kept, entries with the id become the new category, and the rest stay in place |
| CategoriesPage.UpdateCategory | admin/app/categories/page.tsx:49-67 | an edit form whose `name` is no string stops the handler with nothing changed; a blank name alerts; a falsy `editingId` does nothing; none of these sends anything; otherwise it PUTs the whole serialised edit form to the category's URL, the session is what that call leaves, the alert is shown exactly when that call fails, success ends editing with the same length and both forms kept, and failure keeps the screen |
| CategoriesPage.UpdateReplaces | admin/app/categories/page.tsx:58-62 | a successful update replaces exactly the entries with the edited id by the server's category, in place, and ends editing with the creation form untouched |
| CategoriesPage.EchoedEditKeepsList | admin/app/categories/page.tsx:59-61 | saving back a listed category unchanged, with unique ids, leaves the list as it was |
| CategoriesPage.WithoutId | admin/app/categories/page.tsx:74 | a category is kept exactly when it was listed and has another id |
| CategoriesPage.DeleteCategory | admin/app/categories/page.tsx:69-79 | a declined confirm changes nothing; an accepted one sends a DELETE to the category's URL, and the session is what that removal leaves; the alert is shown exactly when that call fails; on success the id is dropped, on failure the screen is kept |
| CategoriesPage.DeleteKeepsOrder | admin/app/categories/page.tsx:74 | deletion keeps the other categories in order and drops exactly the entries carrying the id |
| CategoriesPage.StartEdit | admin/app/categories/page.tsx:81-84 | editing starts on the category's id with a fresh object holding every member of the row the server sent, which is that row itself when its keys are distinct; the list and creation form are untouched |
| CategoriesPage.TypeName | admin/app/categories/page.tsx:147 | typing a name makes it the edit form's `name`, a string, and keeps every other member of the form |
| CategoriesPage.TypeDescription | admin/app/categories/page.tsx:154 | typing a description makes it the edit form's `description` and keeps every other member, the name included |
| CategoriesPage.EditName | admin/app/categories/page.tsx:50 | the name checked is the edit form's `name` exactly when that member is a string |
| CategoriesPage.SaveSendsEditedRow | admin/app/categories/page.tsx:49-84 | starting an edit, retyping the name and saving PUTs the edited form, whose `name` is the typed text and whose every other member is the row's as the server sent it |
| CategoriesPage.CancelEdit | admin/app/categories/page.tsx:167 | cancelling ends editing and keeps the list, the creation form and the edit form |
| ExpensesPage.LoadData | admin/app/expenses/page.tsx:35-45 | the list holds, in order, the cast of each row of the load |
| ExpensesPage.WithoutId | admin/app/expenses/page.tsx:52 | an expense is kept exactly when it was listed and has another id |
| ExpensesPage.DeleteExpense | admin/app/expenses/page.tsx:47-57 | a declined confirm changes nothing; an accepted one sends a DELETE to `/api/expenses/<id>`, and the session is what that removal leaves; the alert is shown exactly when that call fails; on success the id is dropped, on failure the list is kept |
| ExpensesPage.DeleteKeepsOrder | admin/app/expenses/page.tsx:52 | deletion keeps the other expenses in order and drops exactly the entries carrying the id |
| ExpensesPage.FilteredExpenses | admin/app/expenses/page.tsx:59-61 | an expense is listed exactly when its lowercased description contains the lowercased query |
| ExpensesPage.SearchKeepsOrder | admin/app/expenses/page.tsx:59-61 | the result is an order-preserving subsequence holding every matching entry as often as it is listed, an empty query keeps everything, and lowercasing the query first changes nothing |
| Dates.FormatDateRelative | admin/lib/utils.ts:19-33 | by millisecond difference: an unparsable date or a week or more gives the formatted date; under a day gives `Сегодня`; under two days gives `Вчера`; two to six days, or any future date, gives the day count and ` дня назад` |
| Dates.DiffDays | admin/lib/utils.ts:23-24 | the day count is the floor of the difference over 86400000 ms, also for negative differences |
| Dates.DiffDaysUnique | admin/lib/utils.ts:24 | the floor is the only whole number that brackets the difference that way |
| Dates.Buckets | admin/lib/utils.ts:26-29 | under a day gives `Сегодня`; under two days gives `Вчера`; two to six days give the digit and ` дня назад`; a week or more, or an unparsable date, gives the formatted date |
| Dates.FutureDatesCountBackwards | admin/lib/utils.ts:28 | a future date has a negative day count and is labelled `-<days ahead, rounded up> дня назад` |
| Storage.GetItem | admin/lib/api.ts:68 | `getItem` yields a text exactly when the key is stored, and then the stored text |
| Storage.SetItem | admin/lib/api.ts:84 | `setItem` stores the value's string form under the key and leaves every other key alone |
| Storage.ClearSession | admin/lib/api.ts:89-90 | removing `token` and `user` leaves every other key alone |
| Storage.ParseStoredUser | admin/app/layout.tsx:43 | a missing user parses as `{}`, a stored object parses back to itself, and the text `undefined` fails to parse |
| Js.Trim | admin/app/register/page.tsx:56 | `trim` returns the slice left after cutting white space, and only white space, from both ends; the slice neither starts nor ends with white space, and is empty exactly when the text is all white space |
| Js.Includes | admin/app/register/page.tsx:51 | `includes` holds exactly when the substring occurs at some position |
| Js.Lower | admin/app/users/page.tsx:64-67 | `toLowerCase` keeps the length, leaves no capital, keeps every character that is no capital and maps each capital through `LowerChar` |
| Js.LowerChar | admin/app/users/page.tsx:64-67 | a lowered character is never a capital, a character changes exactly when it is a capital, and a capital of the paired Cyrillic blocks becomes the next code point (palochka becomes U+04CF) |
| Js.LowerIdempotent | admin/app/expenses/page.tsx:60 | lowercasing twice is the same as lowercasing once |
| Js.Assign | admin/app/categories/page.tsx:147 | assigning a member makes it read the new value and leaves every other key reading as before; a present key keeps its place, a new key goes last; distinct keys stay distinct |
| Js.LookupOverwrite | admin/app/categories/page.tsx:147 | overwriting a present key changes what that key reads and nothing else |
| Js.CopyInto | admin/app/categories/page.tsx:83 | each key reads its value from the spread members when they have it and from the target otherwise; distinct keys stay distinct |
| Js.CopyOfDistinct | admin/app/categories/page.tsx:83 | spreading members whose keys are distinct copies them unchanged, in order |
| Js.Copy | admin/app/categories/page.tsx:83 | the copy is an object with distinct keys whose every member reads as in the original, and is the original itself when its keys are distinct |
| Js.Spread | admin/app/categories/page.tsx:147 | `{...j, key: v}` is an object with distinct keys where `key` reads `v` and every other key reads as in `j` |

## Left out

- Real `fetch`, HTTP and the JSON grammar. Responses are scripted, and stored raw texts parse only as the literals `null`, `true` and `false`.
- Floating point. Statuses and amounts are integers. A date that does not parse (`NaN`) is `None` in `Dates.FormatDateRelative`, whose `catch` branch is not modelled: nothing in its `try` block throws, since `formatDateTime` catches its own errors.
- `formatDateTime` and `formatCurrency` wrap `Date` and `Intl`, which cannot be seen here. The formatted date is an input to `Dates.FormatDateRelative`.
- Js.Lower: lowers only A to Z, U+00C0 to U+00DE except U+00D7, and the Cyrillic capitals of U+0400 to U+052F. Other capitals, such as Latin Extended, Greek and Armenian ones, are left as they are: the model covers the scripts of the console's own texts.
- The browser's own error texts. An unreachable server throws a `TypeError` whose message is `Failed to fetch`; other browsers word it differently.
- Header names are compared case-sensitively, whereas `fetch`'s `Headers` ignores case.
- Concurrency. Parallel 401s that trigger parallel refreshes are an interleaving concern, and every operation here is sequential.
- React rendering, hooks, JSX, UI components, `console` output, the `setTimeout` delay before the redirect, and the `typeof window` guard (a browser is assumed).
- `admin/app/page.tsx` and `admin/app/reports/page.tsx` are display glue and are not part of this model. `admin/next.config.ts` is not part of it either: its `/backend-api` rewrite is done by the framework.
- `showErrorToast` only calls `alert`.
- `getUser`, `createExpense` and `getDashboardStats` are single calls of `request` that none of the modelled screens uses. `Api.Mutate` and `Api.RequestOnce` cover their behaviour.
- Api.Request: stops after `fuel` attempts with `Diverged`, where the source would keep refreshing and retrying without bound.
- The screens call the corrected client `Api.RequestOnce`, not the source's unbounded retry (see Findings).
- `UsersPage.FetchUsers`, `CategoriesPage.LoadCategories` and `ExpensesPage.LoadData` take each row as a record through `cast`. The source's type assertion checks nothing, so rows of any shape pass.
- LoginPage.ClassificationOrder: an error whose message is not a string (the login page calls `message.includes`, which also accepts arrays) is not modelled. Every thrown value here carries a string message, or none.
- CategoriesPage.StartEdit: spreading a row that is a string or an array, which gives index-keyed members in JavaScript, gives no members here; neither shape is a category. Object keys that look like array indices, which JavaScript orders first, keep their insertion order here.
- `api.request` passes the caller's options (`method`, `body`) straight to `fetch`. Only the method, headers, body and credentials are modelled.

## Findings

| source | as written | input that shows it | evidently intended | confidence | as-written member | corrected member |
|---|---|---|---|---|---|---|
| admin/lib/api.ts:81-87 | after a 401 and a successful refresh, `request` calls itself again with no bound, so a second 401 triggers another refresh and retry | a server that answers every request with 401 while `/api/auth/refresh` keeps issuing tokens | re-issue the request once after a refresh and treat a second 401 as an expired session | not executed | Api.EndlessServerHangsSource | Api.EndlessServerExpiresOnce |
| admin/app/register/page.tsx:61-146 | `setLoading(true)` is never undone: the handler has no `finally`, and the catch block does not reset `loading`, so after any failure the inputs and button stay disabled | an accepted form submitted while the server is unreachable | turn `loading` off once the call settles, as the sign-in page does in its `finally` | not executed | RegisterPage.FailedRegistrationLocksForm | RegisterPage.FailedRegistrationUnlocksForm |

=== FILE: api.dfy ===
/**
 The authenticated request client of `lib/api.ts`.

 The network is a script: the reply to the n-th `fetch` of a session is
 `net(n)`, and the session's log records every `fetch` issued, in order.
 `localStorage` is the session's store and `window.location.href` its
 `location`.

 `Request` is the client as written: on a 401 it refreshes the token and
 calls itself again, with no bound on how often. Its `fuel` counts the
 request attempts the model is willing to follow; `Diverged` means the
 source would still be going. `RequestOnce` is the corrected client that
 re-issues the request at most once.
 */
module Api {
  import opened Js
  import opened Storage
  import opened Errors

  const DefaultApiUrl := "http://localhost:3000"
  const JsonType := "application/json"
  const RefreshEndpoint := "/api/auth/refresh"
  const LoginEndpoint := "/backend-api/auth/login"
  const RegisterEndpoint := "/backend-api/auth/register"
  const UsersEndpoint := "/api/admin/users"
  const CategoriesEndpoint := "/api/categories"
  const ExpensesEndpoint := "/api/expenses"
  const ReportsBase := "/api/reports"

  const RequestFailedMessage := "Ошибка запроса"
  const RefreshFailedMessage := "Ошибка обновления токена"
  const SessionExpiredMessage := "Сессия истекла"
  const LoginFailedMessage := "Ошибка авторизации"
  const RegisterFailedMessage := "Ошибка регистрации"

  /** The error every failed refresh turns into. */
  const SessionExpired := ApiError(ClientClass, SessionExpiredMessage, 401, None)

  /** `process.env.NEXT_PUBLIC_API_URL || 'http://localhost:3000'`. */
  function ApiUrl(env: Option<string>): (r: string)
    ensures env.Some? && env.value != "" ==> r == env.value
    ensures env.None? || env.value == "" ==> r == DefaultApiUrl
  {
    if env.Some? && env.value != "" then env.value else DefaultApiUrl
  }

  /** The `RequestInit` a caller passes; `body` is the request body, the text
      `JSON.stringify` produced held as a JSON string, or `None` when absent. */
  datatype Init = Init(verb: Option<string>, headers: map<string, string>, body: Value, credentials: Option<string>)

  const NoOptions := Init(None, map[], None, None)

  datatype Fetch = Fetch(url: string, init: Init)

  /** A server response; `body` is `None` when it is not JSON (empty, HTML, ...). */
  datatype Response = Response(status: int, body: Option<Json>, contentLength: Option<string>)

  /** What one `fetch` yields: a response, or a rejection because the server is unreachable. */
  datatype Reply = Delivered(response: Response) | Unreachable

  type Network = nat -> Reply

  datatype Session = Session(store: Store, location: Option<string>, log: seq<Fetch>)

  datatype Outcome = Returned(value: Json) | Threw(error: Thrown) | Diverged

  datatype Step = Step(outcome: Outcome, session: Session)

  /** `response.ok`. */
  predicate Ok(status: int) {
    200 <= status <= 299
  }

  predicate IsUnauthorized(reply: Reply) {
    reply.Delivered? && reply.response.status == 401
  }

  predicate Truthful(token: Option<string>) {
    token.Some? && token.value != ""
  }

  /** The headers of an outgoing request: JSON content type, then the bearer
      token when one is stored, then the caller's own headers, later entries
      winning. */
  function Headers(token: Option<string>, caller: map<string, string>): (h: map<string, string>)
    ensures h.Keys == caller.Keys + {"Content-Type"} + (if Truthful(token) then {"Authorization"} else {})
    ensures forall k :: k in caller ==> h[k] == caller[k]
    ensures "Content-Type" !in caller ==> h["Content-Type"] == JsonType
    ensures "Authorization" !in caller && Truthful(token) ==> h["Authorization"] == "Bearer " + token.value
  {
    var plain := map["Content-Type" := JsonType];
    var signed := if Truthful(token) then plain["Authorization" := "Bearer " + token.value] else plain;
    signed + caller
  }

  /** Issues `f`; the reply is the network's answer to the `|s.log|`-th fetch. */
  function Send(net: Network, s: Session, f: Fetch): (Reply, Session)
  {
    (net(|s.log|), s.(log := s.log + [f]))
  }

  /** The fetch one attempt of `request(endpoint, options)` issues with store `st`. */
  function AttemptFetch(base: string, st: Store, endpoint: string, options: Init): Fetch
  {
    Fetch(base + endpoint, options.(headers := Headers(GetItem(st, TokenKey), options.headers)))
  }

  /** Whether `f` is an attempt of `request(endpoint, options)`, whatever token it carried. */
  predicate IsAttempt(f: Fetch, base: string, endpoint: string, options: Init)
  {
    f.url == base + endpoint && f.init == options.(headers := f.init.headers)
  }

  function RefreshFetch(base: string): Fetch
  {
    Fetch(base + RefreshEndpoint, Init(Some("POST"), map[], None, Some("include")))
  }

  /** `api.refresh()`. */
  function RefreshOutcome(reply: Reply): Outcome
  {
    match reply
    case Unreachable => Threw(FetchFailed)
    case Delivered(resp) =>
      if !Ok(resp.status) then Threw(ApiError(ClientClass, RefreshFailedMessage, resp.status, None))
      else if resp.body.Some? then Returned(resp.body.value)
      else Threw(BadJson)
  }

  /** The token pair a refresh delivered, if `request` gets past reading
      `newTokens.accessToken` without throwing. */
  function RenewedTokens(o: Outcome): Option<Json>
  {
    if o.Returned? && !o.value.JNull? then Some(o.value) else None
  }

  predicate Renews(reply: Reply) {
    RenewedTokens(RefreshOutcome(reply)).Some?
  }

  /** `localStorage.setItem('token', newTokens.accessToken)`. */
  function Renew(s: Session, tokens: Json): Session
  {
    s.(store := SetItem(s.store, TokenKey, Member(tokens, "accessToken")))
  }

  /** The catch block after a failed refresh. */
  function Expire(s: Session): Step
  {
    Step(Threw(SessionExpired), s.(store := ClearSession(s.store), location := Some("/login")))
  }

  /** What `request` makes of a response it does not refresh on. */
  function Settled(resp: Response): Outcome
  {
    if !Ok(resp.status) then
      var payload := resp.body.GetOr(EmptyObject);
      if payload.JNull? then Threw(NullMember)
      else
        var m := Member(payload, "message");
        Threw(ApiError(ClientClass, if Truthy(m) then ToStr(m) else RequestFailedMessage, resp.status, Some(payload)))
    else if resp.status == 204 || resp.contentLength == Some("0") then Returned(EmptyObject)
    else if resp.body.Some? then Returned(resp.body.value)
    else Threw(BadJson)
  }

  function Settle(reply: Reply, s: Session): Step
  {
    match reply
    case Unreachable => Step(Threw(FetchFailed), s)
    case Delivered(resp) => Step(Settled(resp), s)
  }

  /** The shape of the fetches a request appends to the log from index `from`
      on: attempts and refreshes alternate, an attempt is followed by a refresh
      only after a 401, and a refresh is followed by a new attempt only when it
      renewed the token. */
  ghost predicate Exchange(net: Network, log: seq<Fetch>, from: nat, base: string, endpoint: string, options: Init)
    decreases |log| - from
  {
    && from <= |log|
    && (from < |log| ==>
          && IsAttempt(log[from], base, endpoint, options)
          && (from + 1 < |log| ==>
                && IsUnauthorized(net(from))
                && log[from + 1] == RefreshFetch(base)
                && (from + 2 < |log| ==> Renews(net(from + 1)) && Exchange(net, log, from + 2, base, endpoint, options))))
  }

  /** Keys other than `token` and `user` are never touched. */
  ghost predicate KeepsOtherKeys(before: Store, after: Store)
  {
    forall k :: k != TokenKey && k != UserKey ==>
      (k in after <==> k in before) && (k in before ==> after[k] == before[k])
  }

  /** `api.request(endpoint, options)` as written, following at most `fuel` attempts. */
  function Request(base: string, net: Network, fuel: nat, s: Session, endpoint: string, options: Init): (r: Step)
    ensures s.log <= r.session.log
    ensures fuel > 0 ==> |r.session.log| > |s.log| && r.session.log[|s.log|] == AttemptFetch(base, s.store, endpoint, options)
    ensures r.outcome.Diverged? ==> |r.session.log| == |s.log| + 2 * fuel
    ensures r.session.location != s.location ==> r.session.location == Some("/login") && r.outcome == Threw(SessionExpired)
    decreases fuel
  {
    if fuel == 0 then Step(Diverged, s)
    else
      var s1 := s.(log := s.log + [AttemptFetch(base, s.store, endpoint, options)]);
      if IsUnauthorized(net(|s.log|)) then
        if Renews(net(|s.log| + 1)) then
          var s2 := AfterRefresh(base, net, s, endpoint, options);
          var r := Request(base, net, fuel - 1, s2, endpoint, options);
          assert r.session.log[..|s2.log|] == s2.log;
          assert r.session.log[|s.log|] == s2.log[|s.log|] == AttemptFetch(base, s.store, endpoint, options);
          assert r.session.log[|s.log| + 1] == s2.log[|s.log| + 1] == RefreshFetch(base);
          assert s.log <= s2.log;
          r
        else Expire(s1.(log := s1.log + [RefreshFetch(base)]))
      else Settle(net(|s.log|), s1)
  }

  /** The corrected client: after one refresh the request is re-issued once,
      and a second 401 ends the session instead of refreshing again. */
  function RequestOnce(base: string, net: Network, s: Session, endpoint: string, options: Init): (r: Step)
    ensures !r.outcome.Diverged?
    ensures |s.log| < |r.session.log| <= |s.log| + 3 && s.log <= r.session.log
    ensures r.session.log[|s.log|] == AttemptFetch(base, s.store, endpoint, options)
    ensures r.session.location != s.location ==> r.session.location == Some("/login") && r.outcome == Threw(SessionExpired)
  {
    var s1 := s.(log := s.log + [AttemptFetch(base, s.store, endpoint, options)]);
    if IsUnauthorized(net(|s.log|)) then
      if Renews(net(|s.log| + 1)) then
        var s3 := AfterRefresh(base, net, s, endpoint, options);
        var s4 := s3.(log := s3.log + [AttemptFetch(base, s3.store, endpoint, options)]);
        if IsUnauthorized(net(|s3.log|)) then Expire(s4) else Settle(net(|s3.log|), s4)
      else Expire(s1.(log := s1.log + [RefreshFetch(base)]))
    else Settle(net(|s.log|), s1)
  }

  /** The session a successful refresh leaves behind for the retry. */
  function AfterRefresh(base: string, net: Network, s: Session, endpoint: string, options: Init): Session
    requires Renews(net(|s.log| + 1))
  {
    var tokens := RenewedTokens(RefreshOutcome(net(|s.log| + 1))).value;
    Renew(s.(log := s.log + [AttemptFetch(base, s.store, endpoint, options)] + [RefreshFetch(base)]), tokens)
  }

  /** The fetches of a request as written follow the attempt/refresh
      alternation. */
  lemma {:induction false} RequestExchange(base: string, net: Network, fuel: nat, s: Session, endpoint: string, options: Init)
    ensures Exchange(net, Request(base, net, fuel, s, endpoint, options).session.log, |s.log|, base, endpoint, options)
    decreases fuel
  {
    if fuel > 0 && IsUnauthorized(net(|s.log|)) && Renews(net(|s.log| + 1)) {
      var s2 := AfterRefresh(base, net, s, endpoint, options);
      RequestExchange(base, net, fuel - 1, s2, endpoint, options);
      var log := Request(base, net, fuel - 1, s2, endpoint, options).session.log;
      assert log == Request(base, net, fuel, s, endpoint, options).session.log;
      assert IsAttempt(log[|s.log|], base, endpoint, options);
      assert log[|s.log| + 1] == RefreshFetch(base);
    }
  }

  /** A request as written changes no key of the store but `token` and
      `user`. */
  lemma {:induction false} RequestKeepsOtherKeys(base: string, net: Network, fuel: nat, s: Session, endpoint: string, options: Init)
    ensures KeepsOtherKeys(s.store, Request(base, net, fuel, s, endpoint, options).session.store)
    decreases fuel
  {
    if fuel > 0 && IsUnauthorized(net(|s.log|)) && Renews(net(|s.log| + 1)) {
      var s2 := AfterRefresh(base, net, s, endpoint, options);
      RequestKeepsOtherKeys(base, net, fuel - 1, s2, endpoint, options);
      assert Request(base, net, fuel - 1, s2, endpoint, options) == Request(base, net, fuel, s, endpoint, options);
      assert KeepsOtherKeys(s.store, s2.store);
    }
  }

  /** The corrected client's fetches follow the same alternation. */
  lemma RequestOnceExchange(base: string, net: Network, s: Session, endpoint: string, options: Init)
    ensures Exchange(net, RequestOnce(base, net, s, endpoint, options).session.log, |s.log|, base, endpoint, options)
  {
    var log := RequestOnce(base, net, s, endpoint, options).session.log;
    if IsUnauthorized(net(|s.log|)) && Renews(net(|s.log| + 1)) {
      assert Exchange(net, log, |s.log| + 2, base, endpoint, options);
    }
  }

  /** The corrected client, too, changes no key but `token` and `user`. */
  lemma RequestOnceKeepsOtherKeys(base: string, net: Network, s: Session, endpoint: string, options: Init)
    ensures KeepsOtherKeys(s.store, RequestOnce(base, net, s, endpoint, options).session.store)
  {
    if IsUnauthorized(net(|s.log|)) && Renews(net(|s.log| + 1)) {
      assert KeepsOtherKeys(s.store, AfterRefresh(base, net, s, endpoint, options).store);
    }
  }

  /** A 401 answered by a successful refresh stores the new access token
      (and nothing else: the new refresh token is dropped) and then re-issues
      the same endpoint with the same options exactly once; that re-issue is
      a complete request of its own. */
  lemma RetryAfterRefresh(base: string, net: Network, fuel: nat, s: Session, endpoint: string, options: Init)
    requires fuel > 0
    requires IsUnauthorized(net(|s.log|)) && Renews(net(|s.log| + 1))
    ensures var s2 := AfterRefresh(base, net, s, endpoint, options);
      && Request(base, net, fuel, s, endpoint, options) == Request(base, net, fuel - 1, s2, endpoint, options)
      && s2.store[TokenKey] == Raw(ToStr(Member(RenewedTokens(RefreshOutcome(net(|s.log| + 1))).value, "accessToken")))
      && (RefreshTokenKey in s2.store <==> RefreshTokenKey in s.store)
      && (RefreshTokenKey in s.store ==> s2.store[RefreshTokenKey] == s.store[RefreshTokenKey])
      && (fuel > 1 ==> Request(base, net, fuel, s, endpoint, options).session.log[|s.log| + 2]
                        == AttemptFetch(base, s2.store, endpoint, options))
  {
    var s2 := AfterRefresh(base, net, s, endpoint, options);
    assert |s2.log| == |s.log| + 2;
  }

  /** The retry carries the renewed token as its bearer credential. */
  lemma RetryCarriesNewToken(base: string, net: Network, fuel: nat, s: Session, endpoint: string, options: Init)
    requires fuel > 1
    requires IsUnauthorized(net(|s.log|)) && Renews(net(|s.log| + 1))
    requires "Authorization" !in options.headers
    ensures var token := ToStr(Member(RenewedTokens(RefreshOutcome(net(|s.log| + 1))).value, "accessToken"));
      var retry := Request(base, net, fuel, s, endpoint, options).session.log[|s.log| + 2];
      && retry.url == base + endpoint
      && (token != "" ==> retry.init.headers["Authorization"] == "Bearer " + token)
  {
    RetryAfterRefresh(base, net, fuel, s, endpoint, options);
  }

  /** A 401 whose refresh fails clears `token` and `user`, keeps every other
      key (the refresh token among them), sends the page to `/login` and
      fails with a 401 session-expired error. */
  lemma RefreshFailureExpires(base: string, net: Network, fuel: nat, s: Session, endpoint: string, options: Init)
    requires fuel > 0
    requires IsUnauthorized(net(|s.log|)) && !Renews(net(|s.log| + 1))
    ensures var r := Request(base, net, fuel, s, endpoint, options);
      && r.outcome.Threw? && r.outcome.error.ApiError? && r.outcome.error.status == 401
      && r.outcome.error.message == SessionExpiredMessage
      && TokenKey !in r.session.store && UserKey !in r.session.store
      && r.session.store == s.store - {TokenKey, UserKey}
      && r.session.location == Some("/login")
      && r.session.log == s.log + [AttemptFetch(base, s.store, endpoint, options), RefreshFetch(base)]
  {
  }

  /** A non-2xx answer other than 401 becomes an error record with the
      original status, the payload's message (or the generic one) and the
      payload itself (`{}` when the body is not JSON). A `null` payload makes
      reading its `message` throw instead. */
  lemma ErrorRecord(base: string, net: Network, fuel: nat, s: Session, endpoint: string, options: Init)
    requires fuel > 0
    requires net(|s.log|).Delivered?
    requires var resp := net(|s.log|).response; resp.status != 401 && !Ok(resp.status)
    ensures var resp := net(|s.log|).response;
      var payload := resp.body.GetOr(EmptyObject);
      var m := Member(payload, "message");
      var r := Request(base, net, fuel, s, endpoint, options);
      && (payload != JNull ==>
            r.outcome == Threw(ApiError(ClientClass, if Truthy(m) then ToStr(m) else RequestFailedMessage, resp.status, Some(payload))))
      && (resp.body.None? ==> r.outcome.error.data == Some(EmptyObject) && r.outcome.error.message == RequestFailedMessage)
      && (payload == JNull ==> r.outcome == Threw(NullMember))
      && r.session == s.(log := s.log + [AttemptFetch(base, s.store, endpoint, options)])
  {
  }

  /** A 2xx answer with status 204 or `content-length: 0` yields `{}`; any
      other 2xx answer yields its parsed body. */
  lemma SuccessPayload(base: string, net: Network, fuel: nat, s: Session, endpoint: string, options: Init)
    requires fuel > 0
    requires net(|s.log|).Delivered? && Ok(net(|s.log|).response.status)
    ensures var resp := net(|s.log|).response;
      var r := Request(base, net, fuel, s, endpoint, options);
      && (resp.status == 204 || resp.contentLength == Some("0") ==> r.outcome == Returned(EmptyObject))
      && (resp.status != 204 && resp.contentLength != Some("0") && resp.body.Some? ==> r.outcome == Returned(resp.body.value))
      && (resp.status != 204 && resp.contentLength != Some("0") && resp.body.None? ==> r.outcome == Threw(BadJson))
      && r.session == s.(log := s.log + [AttemptFetch(base, s.store, endpoint, options)])
  {
  }

  /** A network that answers every attempt with 401 and every refresh with a
      fresh token, from log index `from` on. */
  ghost predicate EndlessRenewal(net: Network, from: nat)
  {
    forall i: nat :: from <= i ==>
      ((i - from) % 2 == 0 ==> IsUnauthorized(net(i))) && ((i - from) % 2 == 1 ==> Renews(net(i)))
  }

  lemma EndlessRenewalShift(net: Network, from: nat)
    requires EndlessRenewal(net, from)
    ensures IsUnauthorized(net(from)) && Renews(net(from + 1))
    ensures EndlessRenewal(net, from + 2)
  {
    assert (from + 1 - from) % 2 == 1;
    forall i: nat | from + 2 <= i
      ensures ((i - (from + 2)) % 2 == 0 ==> IsUnauthorized(net(i))) && ((i - (from + 2)) % 2 == 1 ==> Renews(net(i)))
    {
      assert (i - from) % 2 == (i - (from + 2)) % 2;
    }
  }

  /** Against such a network the source never returns: whatever the fuel,
      every attempt is spent on another refresh. */
  lemma {:induction false} EndlessRenewalDiverges(base: string, net: Network, fuel: nat, s: Session, endpoint: string, options: Init)
    requires EndlessRenewal(net, |s.log|)
    ensures Request(base, net, fuel, s, endpoint, options).outcome == Diverged
    decreases fuel
  {
    if fuel > 0 {
      EndlessRenewalShift(net, |s.log|);
      var s2 := AfterRefresh(base, net, s, endpoint, options);
      assert |s2.log| == |s.log| + 2;
      EndlessRenewalDiverges(base, net, fuel - 1, s2, endpoint, options);
    }
  }

  /** The concrete server of the finding: 401 on every attempt, a new access
      token on every refresh. */
  function EndlessServer(): Network
  {
    (i: nat) =>
      if i % 2 == 0 then Delivered(Response(401, None, None))
      else Delivered(Response(200, Some(JObj([("accessToken", JStr("t"))])), None))
  }

  /** As written, a request against `EndlessServer` never completes. */
  lemma EndlessServerHangsSource(base: string, fuel: nat, endpoint: string)
    ensures Request(base, EndlessServer(), fuel, Session(map[], None, []), endpoint, NoOptions).outcome == Diverged
  {
    var net := EndlessServer();
    forall i: nat | 0 <= i
      ensures ((i - 0) % 2 == 0 ==> IsUnauthorized(net(i))) && ((i - 0) % 2 == 1 ==> Renews(net(i)))
    {
    }
    EndlessRenewalDiverges(base, net, fuel, Session(map[], None, []), endpoint, NoOptions);
  }

  /** The corrected client ends the same exchange after one refresh. */
  lemma EndlessServerExpiresOnce(base: string, endpoint: string)
    ensures var r := RequestOnce(base, EndlessServer(), Session(map[], None, []), endpoint, NoOptions);
      && r.outcome == Threw(SessionExpired)
      && |r.session.log| == 3
      && r.session.location == Some("/login")
  {
  }

  /** The corrected client agrees with the source on every exchange that
      needs at most one refresh. */
  lemma RequestOnceAgrees(base: string, net: Network, fuel: nat, s: Session, endpoint: string, options: Init)
    requires fuel >= 2
    requires |Request(base, net, fuel, s, endpoint, options).session.log| <= |s.log| + 3
    ensures RequestOnce(base, net, s, endpoint, options) == Request(base, net, fuel, s, endpoint, options)
  {
    if IsUnauthorized(net(|s.log|)) && Renews(net(|s.log| + 1)) {
      RetryAfterRefresh(base, net, fuel, s, endpoint, options);
    }
  }

  /** `api.login` and `api.register`: a non-2xx answer throws a plain `Error`
      carrying the payload's message or the fallback. */
  function AuthOutcome(reply: Reply, fallback: string): Outcome
  {
    match reply
    case Unreachable => Threw(FetchFailed)
    case Delivered(resp) =>
      if !Ok(resp.status) then
        var payload := resp.body.GetOr(EmptyObject);
        if payload.JNull? then Threw(NullMember)
        else
          var m := Member(payload, "message");
          Threw(PlainError(if Truthy(m) then ToStr(m) else fallback))
      else if resp.body.Some? then Returned(resp.body.value)
      else Threw(BadJson)
  }

  function LoginFetch(base: string, email: string, password: string): Fetch
  {
    Fetch(base + LoginEndpoint,
          Init(Some("POST"), map["Content-Type" := JsonType],
               Some(JStr(Serialize(JObj([("email", JStr(email)), ("password", JStr(password))])))), None))
  }

  function RegisterFetch(base: string, email: string, password: string, name: string): Fetch
  {
    Fetch(base + RegisterEndpoint,
          Init(Some("POST"), map["Content-Type" := JsonType],
               Some(JStr(Serialize(JObj([("email", JStr(email)), ("password", JStr(password)), ("name", JStr(name))])))), None))
  }

  function Login(base: string, net: Network, s: Session, email: string, password: string): (r: Step)
    ensures r.session == s.(log := s.log + [LoginFetch(base, email, password)])
    ensures !r.outcome.Diverged? && (r.outcome.Threw? ==> r.outcome.error.PlainError?)
    ensures r.outcome.Returned? <==>
      net(|s.log|).Delivered? && Ok(net(|s.log|).response.status) && net(|s.log|).response.body.Some?
    ensures r.outcome.Returned? ==> r.outcome.value == net(|s.log|).response.body.value
    ensures net(|s.log|).Unreachable? ==> r.outcome == Threw(FetchFailed)
    ensures var reply := net(|s.log|);
      reply.Delivered? && !Ok(reply.response.status) && reply.response.body == Some(JNull) ==> r.outcome == Threw(NullMember)
    ensures var reply := net(|s.log|);
      reply.Delivered? && !Ok(reply.response.status) && reply.response.body != Some(JNull) ==>
        var m := Member(reply.response.body.GetOr(EmptyObject), "message");
        r.outcome == Threw(PlainError(if Truthy(m) then ToStr(m) else LoginFailedMessage))
  {
    var (reply, s1) := Send(net, s, LoginFetch(base, email, password));
    Step(AuthOutcome(reply, LoginFailedMessage), s1)
  }

  function Register(base: string, net: Network, s: Session, email: string, password: string, name: string): (r: Step)
    ensures r.session == s.(log := s.log + [RegisterFetch(base, email, password, name)])
    ensures !r.outcome.Diverged? && (r.outcome.Threw? ==> r.outcome.error.PlainError?)
    ensures r.outcome.Returned? <==>
      net(|s.log|).Delivered? && Ok(net(|s.log|).response.status) && net(|s.log|).response.body.Some?
    ensures r.outcome.Returned? ==> r.outcome.value == net(|s.log|).response.body.value
    ensures net(|s.log|).Unreachable? ==> r.outcome == Threw(FetchFailed)
    ensures var reply := net(|s.log|);
      reply.Delivered? && !Ok(reply.response.status) && reply.response.body == Some(JNull) ==> r.outcome == Threw(NullMember)
    ensures var reply := net(|s.log|);
      reply.Delivered? && !Ok(reply.response.status) && reply.response.body != Some(JNull) ==>
        var m := Member(reply.response.body.GetOr(EmptyObject), "message");
        r.outcome == Threw(PlainError(if Truthy(m) then ToStr(m) else RegisterFailedMessage))
  {
    var (reply, s1) := Send(net, s, RegisterFetch(base, email, password, name));
    Step(AuthOutcome(reply, RegisterFailedMessage), s1)
  }

  /** Login and registration failures never carry a status, whereas a failed
      refresh reports the refresh response's status. None of the three
      touches the store. */
  lemma AuthErrorShapes(base: string, net: Network, s: Session, email: string, password: string, name: string)
    ensures var l := Login(base, net, s, email, password);
      && !l.outcome.Diverged? && (l.outcome.Threw? ==> l.outcome.error.PlainError?)
      && l.session == s.(log := s.log + [LoginFetch(base, email, password)])
    ensures var g := Register(base, net, s, email, password, name);
      && !g.outcome.Diverged? && (g.outcome.Threw? ==> g.outcome.error.PlainError?)
      && g.session == s.(log := s.log + [RegisterFetch(base, email, password, name)])
    ensures var reply := net(|s.log|);
      reply.Delivered? && !Ok(reply.response.status) ==>
        RefreshOutcome(reply) == Threw(ApiError(ClientClass, RefreshFailedMessage, reply.response.status, None))
  {
  }

  /** Unwraps a list endpoint's payload: an array as is, otherwise the
      resource-named member, then `data`, then `[]`, the first that is truthy. */
  function ListPayload(v: Json, key: string): (r: Json)
    ensures v.JArr? ==> r == v
    ensures !v.JArr? ==> (Truthy(Some(r)) || r == JArr([]))
    ensures !v.JArr? && r != JArr([]) ==> Some(r) == Member(v, key) || Some(r) == Member(v, "data")
    ensures !v.JArr? && Truthy(Member(v, key)) ==> r == Member(v, key).value
    ensures !v.JArr? && !Truthy(Member(v, key)) && Truthy(Member(v, "data")) ==> r == Member(v, "data").value
  {
    if v.JArr? then v
    else
      var named := Member(v, key);
      if Truthy(named) then named.value
      else
        var data := Member(v, "data");
        if Truthy(data) then data.value else JArr([])
  }

  function ListOutcome(o: Outcome, key: string): Outcome
  {
    match o
    case Returned(v) => Returned(ListPayload(v, key))
    case _ => o
  }

  /** `getUsers`, `getCategories` and `getExpenses`, over the corrected client. */
  function GetList(base: string, net: Network, s: Session, endpoint: string, key: string): (r: Step)
    ensures var q := RequestOnce(base, net, s, endpoint, NoOptions);
      && r.session == q.session
      && (q.outcome.Returned? <==> r.outcome.Returned?)
      && (q.outcome.Returned? ==> r.outcome.value == ListPayload(q.outcome.value, key))
      && (!q.outcome.Returned? ==> r.outcome == q.outcome)
    ensures |r.session.log| > |s.log|
    ensures r.session.log[|s.log|].url == base + endpoint && r.session.log[|s.log|].init.verb.None?
  {
    var r := RequestOnce(base, net, s, endpoint, NoOptions);
    Step(ListOutcome(r.outcome, key), r.session)
  }

  /** The rows a screen keeps from a list load: `Array.isArray(data) ? data : []`,
      and `[]` as well when the load threw. */
  function ListRows(o: Outcome): seq<Json>
  {
    if o.Returned? && o.value.JArr? then o.value.items else []
  }

  /** A list load that fails, or whose payload neither is an array nor
      unwraps to one, leaves the screen with no rows; an array payload, bare,
      wrapped under the resource name or wrapped under `data`, becomes the
      rows. */
  lemma LoadFallback(base: string, net: Network, s: Session, endpoint: string, key: string)
    ensures var o := RequestOnce(base, net, s, endpoint, NoOptions).outcome;
      var rows := ListRows(GetList(base, net, s, endpoint, key).outcome);
      && (o.Threw? ==> rows == [])
      && (o.Returned? && o.value.JArr? ==> rows == o.value.items)
      && (o.Returned? && !o.value.JArr? && Member(o.value, key).Some? && Member(o.value, key).value.JArr? ==>
            rows == Member(o.value, key).value.items)
      && (o.Returned? && !o.value.JArr? && !Truthy(Member(o.value, key))
          && Member(o.value, "data").Some? && Member(o.value, "data").value.JArr? ==>
            rows == Member(o.value, "data").value.items)
      && (o.Returned? && !ListPayload(o.value, key).JArr? ==> rows == [])
      && (o.Returned? && !o.value.JArr? && !Truthy(Member(o.value, key)) && !Truthy(Member(o.value, "data")) ==> rows == [])
  {
  }

  /** `${collection}/${id}`. */
  function ItemEndpoint(collection: string, id: string): string
  {
    collection + "/" + id
  }

  /** `{ method: verb, body: JSON.stringify(data) }`; `JSON.stringify(undefined)`
      leaves the body out. */
  function JsonInit(verb: string, data: Value): Init
  {
    Init(Some(verb), map[], if data.Some? then Some(JStr(Serialize(data.value))) else None, None)
  }

  /** `updateUser`, `createCategory`, `updateCategory`, over the corrected client. */
  function Mutate(base: string, net: Network, s: Session, endpoint: string, verb: string, data: Value): (r: Step)
    ensures |r.session.log| > |s.log|
    ensures var f := r.session.log[|s.log|];
      f.url == base + endpoint && f.init.verb == Some(verb) && f.init.body == JsonInit(verb, data).body
  {
    RequestOnce(base, net, s, endpoint, JsonInit(verb, data))
  }

  /** `deleteUser`, `deleteCategory`, `deleteExpense`, over the corrected client. */
  function Remove(base: string, net: Network, s: Session, endpoint: string): (r: Step)
    ensures |r.session.log| > |s.log|
    ensures var f := r.session.log[|s.log|];
      f.url == base + endpoint && f.init.verb == Some("DELETE") && f.init.body.None?
  {
    RequestOnce(base, net, s, endpoint, Init(Some("DELETE"), map[], None, None))
  }

  /** The first fetch of a mutation goes to the item's URL with the verb and
      the serialised payload, as JSON, signed when a token is stored; a
      deletion carries no body. */
  lemma MutationFetches(base: string, net: Network, s: Session, collection: string, id: string, verb: string, data: Json)
    ensures var f := Mutate(base, net, s, ItemEndpoint(collection, id), verb, Some(data)).session.log[|s.log|];
      && f.url == base + collection + "/" + id
      && f.init.verb == Some(verb) && f.init.body == Some(JStr(Serialize(data)))
      && f.init.headers["Content-Type"] == JsonType
      && (Truthful(GetItem(s.store, TokenKey)) <==> "Authorization" in f.init.headers)
    ensures var f := Remove(base, net, s, ItemEndpoint(collection, id)).session.log[|s.log|];
      && f.url == base + collection + "/" + id
      && f.init.verb == Some("DELETE") && f.init.body == None
      && f.init.headers["Content-Type"] == JsonType
      && (Truthful(GetItem(s.store, TokenKey)) <==> "Authorization" in f.init.headers)
  {
  }

  /** A list-shaped payload of a list endpoint is passed through untouched,
      and a wrapped one is unwrapped by its resource name before `data`: a
      truthy resource-named member wins even over an array under `data`, and
      even when it is no array itself. */
  lemma ListNormalisation(v: Json, key: string)
    ensures v.JArr? ==> ListPayload(v, key) == v
    ensures !v.JArr? && Member(v, key).Some? && Member(v, key).value.JArr? ==> ListPayload(v, key) == Member(v, key).value
    ensures !v.JArr? && Truthy(Member(v, key)) ==> ListPayload(v, key) == Member(v, key).value
    ensures !v.JArr? && !Truthy(Member(v, key)) && Truthy(Member(v, "data")) ==> ListPayload(v, key) == Member(v, "data").value
    ensures !v.JArr? && !Truthy(Member(v, key)) && !Truthy(Member(v, "data")) ==> ListPayload(v, key) == JArr([])
    ensures key != "data" ==> ListPayload(JObj([("data", JArr([JNum(1)]))]), key) == JArr([JNum(1)])
    ensures key != "data" ==> ListPayload(JObj([(key, JStr("x")), ("data", JArr([JNum(1)]))]), key) == JStr("x")
  {
    if key != "data" {
      var both := [(key, JStr("x")), ("data", JArr([JNum(1)]))];
      assert both[..1] == [(key, JStr("x"))];
      assert Lookup(both, key) == Lookup(both[..1], key) == Some(JStr("x"));
      assert Member(JObj(both), key) == Some(JStr("x"));
    }
  }

  /** `getReports(period)`: the period is appended as a query only when truthy. */
  function ReportsEndpoint(period: Option<string>): (r: string)
    ensures ReportsBase <= r
    ensures r == ReportsBase <==> !Truthful(period)
    ensures Truthful(period) ==> r[|ReportsBase|..] == "?period=" + period.value
  {
    if Truthful(period) then ReportsBase + "?period=" + period.value else ReportsBase
  }
}

=== FILE: categories.dfy ===
/**
 The categories screen: loading, the creation form, editing one category in
 place, and deletion.
 */
module CategoriesPage {
  import opened Js
  import Api
  import Lists

  /** A category as the screen holds it: the typed fields the page reads,
      and `row`, the object the server sent, which is what the page really
      keeps and what an edit copies. */
  datatype Category = Category(id: string, name: string, description: Option<string>, row: Json)

  /** The creation form's fields. */
  datatype Draft = Draft(name: string, description: string)

  const EmptyDraft := Draft("", "")

  /** The screen's state: the list, the creation form, the id being edited
      (`null` as `None`) and the edit form, an object copied from a row. */
  datatype Screen = Screen(categories: seq<Category>, draft: Draft, editingId: Option<string>, editData: Json)

  /** The edit form before any edit starts. */
  const InitialEditData: Json := JObj([("id", JStr("")), ("name", JStr("")), ("description", JStr(""))])

  const InitialScreen := Screen([], EmptyDraft, None, InitialEditData)

  datatype Effect = Effect(screen: Screen, session: Api.Session, alert: Option<string>)

  const EnterNameText := "Введите название категории"
  const CreateFailedText := "Не удалось создать категорию"
  const BlankNameText := "Название категории не может быть пустым"
  const UpdateFailedText := "Не удалось обновить категорию"
  const DeleteFailedText := "Не удалось удалить категорию"

  function DraftJson(d: Draft): Json
  {
    JObj([("name", JStr(d.name)), ("description", JStr(d.description))])
  }

  /** A value from the server taken as a category: `cast` plays the
      unchecked TypeScript type assertion for the typed fields, and the row
      itself is kept. */
  function Received(cast: Json -> Category, j: Json): (c: Category)
    ensures c.row == j
  {
    cast(j).(row := j)
  }

  /** `editData.name` as the string `trim` is called on; `None` when it is no
      string, where `trim` throws and the click handler rejects. */
  function EditName(d: Json): (r: Option<string>)
    ensures r.Some? <==> Member(d, "name").Some? && Member(d, "name").value.JStr?
    ensures r.Some? ==> Member(d, "name") == Some(JStr(r.value))
  {
    match Member(d, "name")
    case Some(JStr(n)) => Some(n)
    case _ => None
  }

  /** `loadCategories`: the rows of the load, each taken as a category; the
      forms are untouched. */
  function LoadCategories(base: string, net: Api.Network, s: Api.Session, sc: Screen, cast: Json -> Category): (r: Effect)
    ensures var rows := Api.ListRows(Api.GetList(base, net, s, Api.CategoriesEndpoint, "categories").outcome);
      && |r.screen.categories| == |rows|
      && forall i :: 0 <= i < |rows| ==> r.screen.categories[i].row == rows[i] && r.screen.categories[i] == Received(cast, rows[i])
    ensures r.screen == sc.(categories := r.screen.categories) && r.alert.None?
  {
    var step := Api.GetList(base, net, s, Api.CategoriesEndpoint, "categories");
    Effect(sc.(categories := Lists.Map(Api.ListRows(step.outcome), (j: Json) => Received(cast, j))), step.session, None)
  }

  /** Every category with id `id` replaced by `x`; the rest kept in place. */
  function Replace(categories: seq<Category>, id: string, x: Category): (r: seq<Category>)
    ensures |r| == |categories|
    ensures forall i :: 0 <= i < |categories| ==> r[i] == if categories[i].id == id then x else categories[i]
  {
    Lists.Map(categories, (c: Category) => if c.id == id then x else c)
  }

  function WithoutId(categories: seq<Category>, id: string): (r: seq<Category>)
    ensures forall c :: c in r <==> c in categories && c.id != id
  {
    Lists.Filter(categories, (c: Category) => c.id != id)
  }

  /** `createCategory`: a blank name is refused before any request; otherwise
      the server's category is appended and the form cleared, or an alert is
      shown and nothing changes. */
  function CreateCategory(base: string, net: Api.Network, s: Api.Session, sc: Screen, cast: Json -> Category): (r: Effect)
    ensures Trim(sc.draft.name) == "" ==> r == Effect(sc, s, Some(EnterNameText))
    ensures Trim(sc.draft.name) != "" ==>
      && |r.session.log| > |s.log|
      && r.session.log[|s.log|].url == base + Api.CategoriesEndpoint
      && r.session.log[|s.log|].init.verb == Some("POST")
      && r.session.log[|s.log|].init.body == Some(JStr(Serialize(DraftJson(sc.draft))))
      && (r.alert.None? <==> Api.Mutate(base, net, s, Api.CategoriesEndpoint, "POST", Some(DraftJson(sc.draft))).outcome.Returned?)
      && r.session == Api.Mutate(base, net, s, Api.CategoriesEndpoint, "POST", Some(DraftJson(sc.draft))).session
    ensures r.alert.None? ==>
      && |r.screen.categories| == |sc.categories| + 1
      && r.screen.categories[..|sc.categories|] == sc.categories
      && r.screen.draft == EmptyDraft
    ensures r.alert.Some? ==> r.screen == sc
  {
    if Trim(sc.draft.name) == "" then Effect(sc, s, Some(EnterNameText))
    else
      var step := Api.Mutate(base, net, s, Api.CategoriesEndpoint, "POST", Some(DraftJson(sc.draft)));
      if step.outcome.Returned? then
        var added := sc.categories + [Received(cast, step.outcome.value)];
        assert added[..|sc.categories|] == sc.categories;
        Effect(sc.(categories := added, draft := EmptyDraft), step.session, None)
      else Effect(sc, step.session, Some(CreateFailedText))
  }

  /** `updateCategory`: a blank name is refused, a falsy `editingId` does
      nothing; otherwise every entry with that id becomes the server's
      category and editing ends, or an alert is shown and nothing changes. */
  function UpdateCategory(base: string, net: Api.Network, s: Api.Session, sc: Screen, cast: Json -> Category): (r: Effect)
    ensures EditName(sc.editData).None? ==> r == Effect(sc, s, None)
    ensures EditName(sc.editData).Some? && Trim(EditName(sc.editData).value) == "" ==> r == Effect(sc, s, Some(BlankNameText))
    ensures EditName(sc.editData).Some? && Trim(EditName(sc.editData).value) != "" && !Api.Truthful(sc.editingId) ==> r == Effect(sc, s, None)
    ensures !Saves(sc) ==> r.session == s
    ensures Saves(sc) ==>
      && |r.session.log| > |s.log|
      && r.session.log[|s.log|].url == base + Api.ItemEndpoint(Api.CategoriesEndpoint, sc.editingId.value)
      && r.session.log[|s.log|].init.verb == Some("PUT")
      && r.session.log[|s.log|].init.body == Some(JStr(Serialize(sc.editData)))
      && r.session == Api.Mutate(base, net, s, Api.ItemEndpoint(Api.CategoriesEndpoint, sc.editingId.value), "PUT", Some(sc.editData)).session
      && (r.alert.None? <==> Api.Mutate(base, net, s, Api.ItemEndpoint(Api.CategoriesEndpoint, sc.editingId.value), "PUT",
                                        Some(sc.editData)).outcome.Returned?)
      && (r.alert.None? ==> r.screen.editingId.None? && |r.screen.categories| == |sc.categories|
                            && r.screen.draft == sc.draft && r.screen.editData == sc.editData)
    ensures r.alert.Some? ==> r.screen == sc
  {
    match EditName(sc.editData)
    case None => Effect(sc, s, None)
    case Some(name) =>
      if Trim(name) == "" then Effect(sc, s, Some(BlankNameText))
      else if !Api.Truthful(sc.editingId) then Effect(sc, s, None)
      else
        var id := sc.editingId.value;
        var step := Api.Mutate(base, net, s, Api.ItemEndpoint(Api.CategoriesEndpoint, id), "PUT", Some(sc.editData));
        if step.outcome.Returned? then
          Effect(sc.(categories := Replace(sc.categories, id, Received(cast, step.outcome.value)), editingId := None), step.session, None)
        else Effect(sc, step.session, Some(UpdateFailedText))
  }

  /** The save button sends a request: the edit form's name is a string that
      is not blank, and an id is being edited. */
  predicate Saves(sc: Screen)
  {
    EditName(sc.editData).Some? && Trim(EditName(sc.editData).value) != "" && Api.Truthful(sc.editingId)
  }

  /** `deleteCategory(id)`: nothing happens unless the confirm is accepted;
      then the category leaves the list once the server agrees. */
  function DeleteCategory(base: string, net: Api.Network, s: Api.Session, sc: Screen, id: string, confirmed: bool): (r: Effect)
    ensures !confirmed ==> r == Effect(sc, s, None)
    ensures confirmed ==> |r.session.log| > |s.log| && r.session.log[|s.log|].url == base + Api.ItemEndpoint(Api.CategoriesEndpoint, id)
    ensures confirmed ==> r.session == Api.Remove(base, net, s, Api.ItemEndpoint(Api.CategoriesEndpoint, id)).session
    ensures confirmed ==> r.session.log[|s.log|].init.verb == Some("DELETE")
    ensures confirmed ==> (r.alert.None? <==> Api.Remove(base, net, s, Api.ItemEndpoint(Api.CategoriesEndpoint, id)).outcome.Returned?)
    ensures confirmed && r.alert.None? ==> r.screen == sc.(categories := WithoutId(sc.categories, id))
    ensures r.alert.Some? ==> r.screen == sc && r.alert == Some(DeleteFailedText)
  {
    if !confirmed then Effect(sc, s, None)
    else
      var step := Api.Remove(base, net, s, Api.ItemEndpoint(Api.CategoriesEndpoint, id));
      if step.outcome.Returned? then Effect(sc.(categories := WithoutId(sc.categories, id)), step.session, None)
      else Effect(sc, step.session, Some(DeleteFailedText))
  }

  /** `startEdit(category)`: the category's id is being edited, on a
      shallow copy of the object the server sent. */
  function StartEdit(sc: Screen, c: Category): (r: Screen)
    ensures r.editingId == Some(c.id)
    ensures r.editData.JObj? && forall k :: Member(r.editData, k) == Member(c.row, k)
    ensures c.row.JObj? && DistinctKeys(c.row.fields) ==> r.editData == c.row
    ensures r.categories == sc.categories && r.draft == sc.draft
  {
    sc.(editingId := Some(c.id), editData := Copy(c.row))
  }

  /** Typing in the edit form's name input: `{...editData, name: value}`. */
  function TypeName(sc: Screen, value: string): (r: Screen)
    ensures EditName(r.editData) == Some(value)
    ensures forall k :: k != "name" ==> Member(r.editData, k) == Member(sc.editData, k)
    ensures r.categories == sc.categories && r.draft == sc.draft && r.editingId == sc.editingId
  {
    sc.(editData := Spread(sc.editData, "name", JStr(value)))
  }

  /** Typing in the edit form's description input: `{...editData, description: value}`. */
  function TypeDescription(sc: Screen, value: string): (r: Screen)
    ensures Member(r.editData, "description") == Some(JStr(value))
    ensures forall k :: k != "description" ==> Member(r.editData, k) == Member(sc.editData, k)
    ensures EditName(r.editData) == EditName(sc.editData)
    ensures r.categories == sc.categories && r.draft == sc.draft && r.editingId == sc.editingId
  {
    sc.(editData := Spread(sc.editData, "description", JStr(value)))
  }

  /** The cancel button: `setEditingId(null)`; the list and both forms stay as they are. */
  function CancelEdit(sc: Screen): (r: Screen)
    ensures r.editingId.None? && r.categories == sc.categories
    ensures r.draft == sc.draft && r.editData == sc.editData
  {
    sc.(editingId := None)
  }

  /** A name of nothing but white space is refused by both forms, and
      neither issues a request. */
  lemma BlankNamesRefused(base: string, net: Api.Network, s: Api.Session, sc: Screen, cast: Json -> Category)
    requires forall i :: 0 <= i < |sc.draft.name| ==> IsSpace(sc.draft.name[i])
    requires var n := EditName(sc.editData).GetOr(""); forall i :: 0 <= i < |n| ==> IsSpace(n[i])
    ensures CreateCategory(base, net, s, sc, cast) == Effect(sc, s, Some(EnterNameText))
    ensures EditName(sc.editData).Some? ==> UpdateCategory(base, net, s, sc, cast) == Effect(sc, s, Some(BlankNameText))
  {
    assert Trim(sc.draft.name) == "";
    var n := EditName(sc.editData).GetOr("");
    assert Trim(n) == "";
    if EditName(sc.editData).Some? {
      assert !Saves(sc);
    }
  }

  /** A successful creation puts the server's category last, behind the
      unchanged list. */
  lemma CreateAppends(base: string, net: Api.Network, s: Api.Session, sc: Screen, cast: Json -> Category)
    requires Trim(sc.draft.name) != ""
    requires Api.Mutate(base, net, s, Api.CategoriesEndpoint, "POST", Some(DraftJson(sc.draft))).outcome.Returned?
    ensures var v := Api.Mutate(base, net, s, Api.CategoriesEndpoint, "POST", Some(DraftJson(sc.draft))).outcome.value;
      CreateCategory(base, net, s, sc, cast).screen.categories == sc.categories + [Received(cast, v)]
  {
  }

  /** A successful update replaces exactly the entries with the edited id by
      the server's category, in place, and ends editing; the creation form
      is untouched. */
  lemma UpdateReplaces(base: string, net: Api.Network, s: Api.Session, sc: Screen, cast: Json -> Category)
    requires Saves(sc)
    requires Api.Mutate(base, net, s, Api.ItemEndpoint(Api.CategoriesEndpoint, sc.editingId.value), "PUT",
                        Some(sc.editData)).outcome.Returned?
    ensures var v := Api.Mutate(base, net, s, Api.ItemEndpoint(Api.CategoriesEndpoint, sc.editingId.value), "PUT",
                                Some(sc.editData)).outcome.value;
      var r := UpdateCategory(base, net, s, sc, cast).screen;
      && r.editingId.None? && r.draft == sc.draft
      && |r.categories| == |sc.categories|
      && (forall i :: 0 <= i < |sc.categories| && sc.categories[i].id == sc.editingId.value ==> r.categories[i] == Received(cast, v))
      && (forall i :: 0 <= i < |sc.categories| && sc.categories[i].id != sc.editingId.value ==> r.categories[i] == sc.categories[i])
  {
    var id := sc.editingId.value;
    var v := Api.Mutate(base, net, s, Api.ItemEndpoint(Api.CategoriesEndpoint, id), "PUT", Some(sc.editData)).outcome.value;
    assert UpdateCategory(base, net, s, sc, cast).screen == sc.(categories := Replace(sc.categories, id, Received(cast, v)), editingId := None);
  }

  /** Starting an edit, retyping the name and saving sends the whole row the
      server gave, every member but `name` as it came, and `name` as typed. */
  lemma SaveSendsEditedRow(base: string, net: Api.Network, s: Api.Session, sc: Screen, c: Category, name: string, cast: Json -> Category)
    requires Trim(name) != "" && c.id != ""
    ensures var edited := TypeName(StartEdit(sc, c), name);
      && UpdateCategory(base, net, s, edited, cast).session.log[|s.log|].init.body == Some(JStr(Serialize(edited.editData)))
      && Member(edited.editData, "name") == Some(JStr(name))
      && forall k :: k != "name" ==> Member(edited.editData, k) == Member(c.row, k)
  {
    var edited := TypeName(StartEdit(sc, c), name);
    assert Saves(edited);
  }

  /** Editing a listed category and saving it back unchanged, when the server
      echoes it and ids are unique, leaves the list exactly as it was. */
  lemma EchoedEditKeepsList(categories: seq<Category>, c: Category)
    requires c in categories
    requires forall i, j :: 0 <= i < j < |categories| ==> categories[i].id != categories[j].id
    ensures Replace(categories, c.id, c) == categories
  {
    var k :| 0 <= k < |categories| && categories[k] == c;
    var r := Replace(categories, c.id, c);
    forall i | 0 <= i < |categories| ensures r[i] == categories[i] {
      if categories[i].id == c.id {
        assert i == k;
      }
    }
  }

  /** Deleting keeps every other category, in order, and drops exactly the
      entries that carry the id. */
  lemma DeleteKeepsOrder(categories: seq<Category>, id: string)
    ensures Lists.IsSubsequence(WithoutId(categories, id), categories)
    ensures |WithoutId(categories, id)| + Lists.Count(categories, (c: Category) => c.id == id) == |categories|
  {
    Lists.FilterIsSubsequence(categories, (c: Category) => c.id != id);
    Lists.FilterCount(categories, (c: Category) => c.id != id);
    Lists.CountComplement(categories, (c: Category) => c.id != id, (c: Category) => c.id == id);
  }
}

=== FILE: dates.dfy ===
/**
 `formatDateRelative`: how long ago a date was, in whole days, abstracted to
 the millisecond difference between now and the date.
 */
module Dates {
  import opened Js

  /** `1000 * 60 * 60 * 24`. */
  const DayMs := 86400000

  const TodayText := "Сегодня"
  const YesterdayText := "Вчера"
  const DaysAgoSuffix := " дня назад"

  /** `Math.floor(diffMs / DayMs)`: the whole days in `diffMs`, rounding down
      also for negative differences. */
  function DiffDays(diffMs: int): (d: int)
    ensures DayMs * d <= diffMs < DayMs * (d + 1)
  {
    diffMs / DayMs
  }

  /** The label for a date `diffMs` milliseconds in the past (`None` is the
      `NaN` an unparsable date gives); `formatted` is the locale rendering
      of the date, which the label falls back to. */
  function FormatDateRelative(diffMs: Option<int>, formatted: string): (r: string)
    ensures diffMs.None? ==> r == formatted
    ensures diffMs.Some? && 0 <= diffMs.value < DayMs ==> r == TodayText
    ensures diffMs.Some? && DayMs <= diffMs.value < 2 * DayMs ==> r == YesterdayText
    ensures diffMs.Some? && (diffMs.value < 0 || 2 * DayMs <= diffMs.value < 7 * DayMs) ==>
      r == IntToString(DiffDays(diffMs.value)) + DaysAgoSuffix
    ensures diffMs.Some? && 7 * DayMs <= diffMs.value ==> r == formatted
  {
    if diffMs.None? then formatted
    else
      var days := DiffDays(diffMs.value);
      if days == 0 then TodayText
      else if days == 1 then YesterdayText
      else if days < 7 then IntToString(days) + DaysAgoSuffix
      else formatted
  }

  /** Rounding down is the only choice: any whole number of days that brackets
      the difference the same way is `DiffDays`. */
  lemma DiffDaysUnique(diffMs: int, d: int)
    requires DayMs * d <= diffMs < DayMs * (d + 1)
    ensures d == DiffDays(diffMs)
  {
  }

  /** The buckets, by the millisecond difference: under a day is today, under
      two days is yesterday, under a week counts the days, and a week or
      more, or an unparsable date, shows the date itself. */
  lemma Buckets(diffMs: int, formatted: string)
    ensures 0 <= diffMs < DayMs ==> FormatDateRelative(Some(diffMs), formatted) == TodayText
    ensures DayMs <= diffMs < 2 * DayMs ==> FormatDateRelative(Some(diffMs), formatted) == YesterdayText
    ensures 2 * DayMs <= diffMs < 7 * DayMs ==>
      && 2 <= DiffDays(diffMs) < 7
      && FormatDateRelative(Some(diffMs), formatted) == [Digit(DiffDays(diffMs))] + DaysAgoSuffix
    ensures 7 * DayMs <= diffMs ==> FormatDateRelative(Some(diffMs), formatted) == formatted
    ensures FormatDateRelative(None, formatted) == formatted
  {
  }

  /** A date in the future has a negative day count, which passes the
      `< 7` test: the label is a minus sign, the count of days ahead rounded
      up, and the "days ago" suffix. */
  lemma FutureDatesCountBackwards(diffMs: int, formatted: string)
    requires diffMs < 0
    ensures var r := FormatDateRelative(Some(diffMs), formatted);
      && DiffDays(diffMs) < 0
      && r == "-" + NatToString(-DiffDays(diffMs)) + DaysAgoSuffix
      && (-DiffDays(diffMs) - 1) * DayMs < -diffMs <= -DiffDays(diffMs) * DayMs
  {
    var d := DiffDays(diffMs);
    assert 86400000 * d <= diffMs < 86400000 * (d + 1);
    assert IntToString(d) == "-" + NatToString(-d);
  }
}

=== FILE: error_handler.dfy ===
/**
 `handleApiError` of `lib/error-handler.ts`: a status-to-message table for
 that file's own `ApiError` class, with one side effect, on 401.
 */
module ErrorHandler {
  import opened Js
  import opened Storage
  import opened Errors
  import Api

  const ExpiredText := "Сессия истекла. Пожалуйста, войдите снова."
  const ForbiddenText := "У вас нет доступа к этой странице."
  const NotFoundText := "Ресурс не найден."
  const InvalidText := "Некорректные данные. Пожалуйста, проверьте введенную информацию."
  const ServerFaultText := "Внутренняя ошибка сервера. Пожалуйста, попробуйте позже."
  const GenericText := "Произошла ошибка."
  const UnknownText := "Неизвестная ошибка."

  /** The message shown, and the store and location the call leaves behind. */
  datatype Handled = Handled(message: string, store: Store, location: Option<string>)

  /** Whether `e instanceof ApiError` holds for the class this file declares. */
  predicate IsHandlerApiError(e: Thrown) {
    e.ApiError? && e.cls == HandlerClass
  }

  function HandleApiError(e: Thrown, st: Store, location: Option<string>): (r: Handled)
    ensures r.store != st || r.location != location ==> IsHandlerApiError(e) && e.status == 401
    ensures IsHandlerApiError(e) && e.status == 401 ==> r.store == ClearSession(st) && r.location == Some("/login")
    ensures IsHandlerApiError(e) ==> r.message != ""
  {
    if IsHandlerApiError(e) then
      if e.status == 401 then Handled(ExpiredText, ClearSession(st), Some("/login"))
      else if e.status == 403 then Handled(ForbiddenText, st, location)
      else if e.status == 404 then Handled(NotFoundText, st, location)
      else if e.status == 422 then Handled(InvalidText, st, location)
      else if e.status == 500 then Handled(ServerFaultText, st, location)
      else Handled(if e.message != "" then e.message else GenericText, st, location)
    else if e.PlainError? || e.ApiError? then Handled(e.message, st, location)
    else Handled(UnknownText, st, location)
  }

  /** The status table for the handler's own `ApiError`: 401 ends the
      session, 403, 404, 422 and 500 have fixed texts, and any other status
      shows the error's message, or a generic text when it is empty. */
  lemma StatusTable(message: string, status: int, data: Value, st: Store, location: Option<string>)
    ensures var r := HandleApiError(ApiError(HandlerClass, message, status, data), st, location);
      && (status == 401 ==> r == Handled(ExpiredText, st - {TokenKey, UserKey}, Some("/login")))
      && (status == 403 ==> r == Handled(ForbiddenText, st, location))
      && (status == 404 ==> r == Handled(NotFoundText, st, location))
      && (status == 422 ==> r == Handled(InvalidText, st, location))
      && (status == 500 ==> r == Handled(ServerFaultText, st, location))
      && (status !in {401, 403, 404, 422, 500} ==>
            r == Handled(if message == "" then GenericText else message, st, location))
  {
  }

  /** An `Error` that is not the handler's `ApiError` shows its own message,
      even an empty one, and anything else shows the unknown-error text;
      neither touches the store or the location. */
  lemma OtherThrownValues(e: Thrown, st: Store, location: Option<string>)
    requires !IsHandlerApiError(e)
    ensures var r := HandleApiError(e, st, location);
      && r.store == st && r.location == location
      && (e.NonError? ==> r.message == UnknownText)
      && (!e.NonError? ==> r.message == e.message)
  {
  }

  /** Errors thrown by the request client are instances of the other
      `ApiError` class, so the status table never applies to them: even the
      client's own 401 session-expired error is reported by its bare message
      and leaves the store alone. */
  lemma ClientErrorsBypassTable(base: string, net: Api.Network, fuel: nat, s: Api.Session, endpoint: string, options: Api.Init,
                                e: Thrown, st: Store, location: Option<string>)
    requires Api.Request(base, net, fuel, s, endpoint, options).outcome == Api.Threw(e)
    ensures !e.NonError? && !IsHandlerApiError(e)
    ensures HandleApiError(e, st, location) == Handled(e.message, st, location)
  {
    ClientErrorsAreClientClass(base, net, fuel, s, endpoint, options);
    ErrorInstancesShowMessage(e, st, location);
  }

  lemma ErrorInstancesShowMessage(e: Thrown, st: Store, location: Option<string>)
    requires !e.NonError? && !IsHandlerApiError(e)
    ensures HandleApiError(e, st, location) == Handled(e.message, st, location)
  {
  }

  lemma {:induction false} ClientErrorsAreClientClass(base: string, net: Api.Network, fuel: nat, s: Api.Session, endpoint: string, options: Api.Init)
    ensures var o := Api.Request(base, net, fuel, s, endpoint, options).outcome;
      o.Threw? ==> !o.error.NonError? && !IsHandlerApiError(o.error)
    decreases fuel
  {
    if fuel > 0 && Api.IsUnauthorized(net(|s.log|)) && Api.Renews(net(|s.log| + 1)) {
      ClientErrorsAreClientClass(base, net, fuel - 1, Api.AfterRefresh(base, net, s, endpoint, options), endpoint, options);
    }
  }
}

=== FILE: errors.dfy ===
/**
 Values the console throws and catches. `lib/api.ts` and
 `lib/error-handler.ts` each declare their own `ApiError` class; the two are
 distinct, so `instanceof` tells them apart.
 */
module Errors {
  import opened Js

  datatype ApiErrorClass =
    | ClientClass    // `ApiError` of lib/api.ts
    | HandlerClass   // `ApiError` of lib/error-handler.ts

  datatype Thrown =
    | ApiError(cls: ApiErrorClass, message: string, status: int, data: Value)
    | PlainError(message: string)   // `Error`, `TypeError`, `SyntaxError`
    | NonError(value: Json)         // a thrown value that is no `Error` instance

  /** `fetch` rejects with this when the server cannot be reached. */
  const FetchFailed := PlainError("Failed to fetch")
  /** `response.json()` rejects with this when the body is not JSON. */
  const BadJson := PlainError("Unexpected end of JSON input")
  /** Reading a member of `null` throws this. */
  const NullMember := PlainError("Cannot read properties of null")
}

=== FILE: expenses.dfy ===
/**
 The expenses screen: loading every user's expenses, deleting one, and the
 search over descriptions.
 */
module ExpensesPage {
  import opened Js
  import Api
  import Lists

  datatype Expense = Expense(id: string, amount: int, description: string, date: string, createdAt: string,
                             userId: string, categoryId: string)

  const DeleteFailedText := "Не удалось удалить расход"

  datatype Effect = Effect(expenses: seq<Expense>, session: Api.Session, alert: Option<string>)

  /** `loadData`: the rows of the load, each taken as an expense (`cast` plays
      the unchecked TypeScript type assertion). */
  function LoadData(base: string, net: Api.Network, s: Api.Session, cast: Json -> Expense): (r: Effect)
    ensures var rows := Api.ListRows(Api.GetList(base, net, s, Api.ExpensesEndpoint, "expenses").outcome);
      && |r.expenses| == |rows|
      && forall i :: 0 <= i < |rows| ==> r.expenses[i] == cast(rows[i])
    ensures r.alert.None?
  {
    var step := Api.GetList(base, net, s, Api.ExpensesEndpoint, "expenses");
    Effect(Lists.Map(Api.ListRows(step.outcome), cast), step.session, None)
  }

  function WithoutId(expenses: seq<Expense>, id: string): (r: seq<Expense>)
    ensures forall e :: e in r <==> e in expenses && e.id != id
  {
    Lists.Filter(expenses, (e: Expense) => e.id != id)
  }

  /** `deleteExpense(id)`: nothing happens unless the confirm is accepted;
      then the expense leaves the list once the server agrees. */
  function DeleteExpense(base: string, net: Api.Network, s: Api.Session, expenses: seq<Expense>, id: string, confirmed: bool): (r: Effect)
    ensures !confirmed ==> r == Effect(expenses, s, None)
    ensures confirmed ==> |r.session.log| > |s.log| && r.session.log[|s.log|].url == base + Api.ItemEndpoint(Api.ExpensesEndpoint, id)
    ensures confirmed ==> r.session == Api.Remove(base, net, s, Api.ItemEndpoint(Api.ExpensesEndpoint, id)).session
    ensures confirmed ==> r.session.log[|s.log|].init.verb == Some("DELETE")
    ensures confirmed ==> (r.alert.None? <==> Api.Remove(base, net, s, Api.ItemEndpoint(Api.ExpensesEndpoint, id)).outcome.Returned?)
    ensures confirmed && r.alert.None? ==> r.expenses == WithoutId(expenses, id)
    ensures r.alert.Some? ==> r.expenses == expenses && r.alert == Some(DeleteFailedText)
  {
    if !confirmed then Effect(expenses, s, None)
    else
      var step := Api.Remove(base, net, s, Api.ItemEndpoint(Api.ExpensesEndpoint, id));
      if step.outcome.Returned? then Effect(WithoutId(expenses, id), step.session, None)
      else Effect(expenses, step.session, Some(DeleteFailedText))
  }

  /** The search test: only the description counts, compared lowercased. */
  predicate Matches(e: Expense, search: string)
  {
    Includes(Lower(e.description), Lower(search))
  }

  function FilteredExpenses(expenses: seq<Expense>, search: string): (r: seq<Expense>)
    ensures forall e :: e in r <==> e in expenses && Matches(e, search)
  {
    Lists.Filter(expenses, (e: Expense) => Matches(e, search))
  }

  /** Deleting keeps every other expense, in order, and drops exactly the
      entries that carry the id. */
  lemma DeleteKeepsOrder(expenses: seq<Expense>, id: string)
    ensures Lists.IsSubsequence(WithoutId(expenses, id), expenses)
    ensures |WithoutId(expenses, id)| + Lists.Count(expenses, (e: Expense) => e.id == id) == |expenses|
  {
    Lists.FilterIsSubsequence(expenses, (e: Expense) => e.id != id);
    Lists.FilterCount(expenses, (e: Expense) => e.id != id);
    Lists.CountComplement(expenses, (e: Expense) => e.id != id, (e: Expense) => e.id == id);
  }

  /** The search keeps matching expenses in order, each as often as it is
      listed, an empty query keeps all,
      and a query in a letter case the description does not use still
      matches, since both sides are lowercased. */
  lemma SearchKeepsOrder(expenses: seq<Expense>, search: string)
    ensures Lists.IsSubsequence(FilteredExpenses(expenses, search), expenses)
    ensures |FilteredExpenses(expenses, search)| == Lists.Count(expenses, (e: Expense) => Matches(e, search))
    ensures search == "" ==> FilteredExpenses(expenses, search) == expenses
    ensures forall e :: Matches(e, search) <==> Matches(e, Lower(search))
  {
    Lists.FilterIsSubsequence(expenses, (e: Expense) => Matches(e, search));
    Lists.FilterCount(expenses, (e: Expense) => Matches(e, search));
    LowerIdempotent(search);
    if search == "" {
      forall i | 0 <= i < |expenses| ensures Matches(expenses[i], search) {
        IncludesEmpty(Lower(expenses[i].description));
      }
      Lists.FilterAll(expenses, (e: Expense) => Matches(e, search));
    }
  }
}

=== FILE: js.dfy ===
/**
 JavaScript values as the admin console sees them: parsed JSON payloads,
 `undefined`, truthiness, property access, `String(...)`, `JSON.stringify`
 and the handful of string operations the pages use (`includes`, `trim`,
 `toLowerCase`, `length`).
 */
module Js {

  datatype Option<+T> = None | Some(value: T) {
    function GetOr(default: T): T {
      match this
      case Some(v) => v
      case None => default
    }
  }

  /** A parsed JSON value. Numbers are integers; object members keep their
      insertion order, as JavaScript objects do. */
  datatype Json =
    | JNull
    | JBool(b: bool)
    | JNum(n: int)
    | JStr(s: string)
    | JArr(items: seq<Json>)
    | JObj(fields: seq<(string, Json)>)

  /** A JavaScript value that may be `undefined` (`None`). */
  type Value = Option<Json>

  const EmptyObject: Json := JObj([])

  /** JavaScript truthiness: `undefined`, `null`, `false`, `0` and `""` are falsy. */
  predicate Truthy(v: Value) {
    match v
    case None => false
    case Some(j) =>
      match j
      case JNull => false
      case JBool(b) => b
      case JNum(n) => n != 0
      case JStr(s) => s != ""
      case JArr(_) => true
      case JObj(_) => true
  }

  /** The last member named `key`, as `JSON.parse` keeps the last of repeated keys. */
  function Lookup(fields: seq<(string, Json)>, key: string): (r: Value)
    ensures r.Some? <==> exists i :: 0 <= i < |fields| && fields[i].0 == key
    ensures r.Some? ==> (key, r.value) in fields
  {
    if |fields| == 0 then None
    else if fields[|fields| - 1].0 == key then Some(fields[|fields| - 1].1)
    else
      var r := Lookup(fields[..|fields| - 1], key);
      assert forall i :: 0 <= i < |fields| - 1 ==> fields[..|fields| - 1][i] == fields[i];
      r
  }

  /** `j.key` (and `j?.key`) on a value that is not `null`: an object's own
      member, `undefined` for everything else. Reading a member of `null`
      throws, which callers model themselves. */
  function Member(j: Json, key: string): (r: Value)
    ensures r.Some? ==> j.JObj? && (key, r.value) in j.fields
    ensures j.JObj? && (exists i :: 0 <= i < |j.fields| && j.fields[i].0 == key) ==> r.Some?
  {
    if j.JObj? then Lookup(j.fields, key) else None
  }

  /** No key appears twice among an object's members. */
  predicate DistinctKeys(fields: seq<(string, Json)>)
  {
    forall i, j :: 0 <= i < j < |fields| ==> fields[i].0 != fields[j].0
  }

  /** Every member named `key` takes the value `v`; the rest stay in place. */
  function Overwrite(fields: seq<(string, Json)>, key: string, v: Json): (r: seq<(string, Json)>)
    ensures |r| == |fields|
    ensures forall i :: 0 <= i < |fields| ==> r[i] == if fields[i].0 == key then (key, v) else fields[i]
  {
    if |fields| == 0 then []
    else
      var last := fields[|fields| - 1];
      Overwrite(fields[..|fields| - 1], key, v) + [if last.0 == key then (key, v) else last]
  }

  /** Overwriting a present key changes what that key reads and nothing else. */
  lemma {:induction false} LookupOverwrite(fields: seq<(string, Json)>, key: string, v: Json, k: string)
    ensures Lookup(Overwrite(fields, key, v), k) == if k == key && Lookup(fields, k).Some? then Some(v) else Lookup(fields, k)
    decreases |fields|
  {
    if |fields| > 0 {
      var n := |fields| - 1;
      var r := Overwrite(fields, key, v);
      assert r[..n] == Overwrite(fields[..n], key, v);
      LookupOverwrite(fields[..n], key, v, k);
    }
  }

  /** Assigning `o[key] = v` on an object's members: a key already present
      keeps its place and takes the new value, a new key goes last. */
  function Assign(fields: seq<(string, Json)>, key: string, v: Json): (r: seq<(string, Json)>)
    ensures Lookup(r, key) == Some(v)
    ensures forall k :: k != key ==> Lookup(r, k) == Lookup(fields, k)
    ensures Lookup(fields, key).Some? ==> |r| == |fields| && forall i :: 0 <= i < |fields| ==> r[i].0 == fields[i].0
    ensures Lookup(fields, key).None? ==> r == fields + [(key, v)]
    ensures DistinctKeys(fields) ==> DistinctKeys(r)
  {
    if Lookup(fields, key).Some? then
      var r := Overwrite(fields, key, v);
      LookupOverwrite(fields, key, v, key);
      forall k | k != key ensures Lookup(r, k) == Lookup(fields, k) {
        LookupOverwrite(fields, key, v, k);
      }
      r
    else
      var r := fields + [(key, v)];
      assert r[..|fields|] == fields;
      r
  }

  /** The members of `{...acc}` after assigning `fields` one after another. */
  function CopyInto(acc: seq<(string, Json)>, fields: seq<(string, Json)>): (r: seq<(string, Json)>)
    ensures forall k :: Lookup(r, k) == if Lookup(fields, k).Some? then Lookup(fields, k) else Lookup(acc, k)
    ensures DistinctKeys(acc) ==> DistinctKeys(r)
    decreases |fields|
  {
    if |fields| == 0 then acc
    else
      var n := |fields| - 1;
      var r := Assign(CopyInto(acc, fields[..n]), fields[n].0, fields[n].1);
      assert forall k :: k != fields[n].0 ==> Lookup(fields, k) == Lookup(fields[..n], k);
      r
  }

  /** Spreading members that already have distinct keys copies them as they are. */
  lemma {:induction false} CopyOfDistinct(fields: seq<(string, Json)>)
    requires DistinctKeys(fields)
    ensures CopyInto([], fields) == fields
    decreases |fields|
  {
    if |fields| > 0 {
      var n := |fields| - 1;
      var front := fields[..n];
      assert DistinctKeys(front) by {
        forall i, j | 0 <= i < j < |front| ensures front[i].0 != front[j].0 {
          assert front[i] == fields[i] && front[j] == fields[j];
        }
      }
      CopyOfDistinct(front);
      assert Lookup(front, fields[n].0).None? by {
        forall i | 0 <= i < |front| ensures front[i].0 != fields[n].0 {
          assert front[i] == fields[i];
        }
      }
      assert CopyInto([], fields) == Assign(front, fields[n].0, fields[n].1);
      assert front + [fields[n]] == fields;
    }
  }

  /** `{...j}`: a fresh object holding the own members of `j`, each key once,
      where it first appeared, with its last value. `null`, booleans and
      numbers have no own members. */
  function Copy(j: Json): (r: Json)
    ensures r.JObj? && DistinctKeys(r.fields)
    ensures forall k :: Member(r, k) == Member(j, k)
    ensures j.JObj? && DistinctKeys(j.fields) ==> r == j
  {
    if j.JObj? && DistinctKeys(j.fields) then CopyOfDistinct(j.fields); JObj(CopyInto([], j.fields))
    else JObj(if j.JObj? then CopyInto([], j.fields) else [])
  }

  /** `{...j, key: v}`. */
  function Spread(j: Json, key: string, v: Json): (r: Json)
    ensures r.JObj? && DistinctKeys(r.fields)
    ensures Member(r, key) == Some(v)
    ensures forall k :: k != key ==> Member(r, k) == Member(j, k)
  {
    JObj(Assign(Copy(j).fields, key, v))
  }

  function Digit(d: nat): (c: char)
    requires d < 10
    ensures '0' <= c <= '9'
  {
    ['0', '1', '2', '3', '4', '5', '6', '7', '8', '9'][d]
  }

  /** The number a string of decimal digits denotes. */
  function DecimalValue(s: string): nat
    requires forall i :: 0 <= i < |s| ==> '0' <= s[i] <= '9'
  {
    if |s| == 0 then 0
    else DecimalValue(s[..|s| - 1]) * 10 + (s[|s| - 1] as int - '0' as int)
  }

  /** Decimal rendering of a natural number, without leading zeros. */
  function NatToString(n: nat): (r: string)
    ensures |r| > 0
    ensures forall i :: 0 <= i < |r| ==> '0' <= r[i] <= '9'
    ensures DecimalValue(r) == n
    ensures |r| > 1 ==> r[0] != '0'
  {
    if n < 10 then [Digit(n)]
    else
      var front := NatToString(n / 10);
      var r := front + [Digit(n % 10)];
      assert r[..|r| - 1] == front;
      r
  }

  /** `String(n)` for an integer. */
  function IntToString(n: int): (r: string)
    ensures |r| > 0
    ensures r[0] == '-' <==> n < 0
    ensures n >= 0 ==> (forall i :: 0 <= i < |r| ==> '0' <= r[i] <= '9') && DecimalValue(r) == n
    ensures n < 0 ==> (forall i :: 1 <= i < |r| ==> '0' <= r[i] <= '9') && DecimalValue(r[1..]) == -n
  {
    if n < 0 then "-" + NatToString(-n) else NatToString(n)
  }

  function Join(parts: seq<string>, sep: string): string
  {
    if |parts| == 0 then ""
    else if |parts| == 1 then parts[0]
    else parts[0] + sep + Join(parts[1..], sep)
  }

  /** `String(v)`. Inside an array, `null` and `undefined` render as "". */
  function ToStr(v: Value): string
  {
    match v
    case None => "undefined"
    case Some(j) => Text(j)
  }

  function Text(j: Json): string
    decreases j
  {
    match j
    case JNull => "null"
    case JBool(b) => if b then "true" else "false"
    case JNum(n) => IntToString(n)
    case JStr(s) => s
    case JArr(items) =>
      Join(seq(|items|, i requires 0 <= i < |items| => if items[i].JNull? then "" else Text(items[i])), ",")
    case JObj(_) => "[object Object]"
  }

  /** `Array.prototype.join(sep)` on a parsed array. */
  function JoinItems(items: seq<Json>, sep: string): string
  {
    Join(seq(|items|, i requires 0 <= i < |items| => if items[i].JNull? then "" else Text(items[i])), sep)
  }

  function HexDigit(d: nat): char
    requires d < 16
  {
    "0123456789abcdef"[d]
  }

  /** One character of a JSON string literal, escaped as `JSON.stringify` does. */
  function EscapeChar(c: char): string
  {
    if c == '"' then "\\\""
    else if c == '\\' then "\\\\"
    else if c == '\n' then "\\n"
    else if c == '\r' then "\\r"
    else if c == '\t' then "\\t"
    else if c as int == 0x08 then "\\b"
    else if c as int == 0x0C then "\\f"
    else if (c as int) < 0x20 then "\\u00" + [HexDigit(c as int / 16), HexDigit(c as int % 16)]
    else [c]
  }

  function Escape(s: string): string
  {
    if |s| == 0 then "" else EscapeChar(s[0]) + Escape(s[1..])
  }

  function Quote(s: string): string
  {
    "\"" + Escape(s) + "\""
  }

  /** `JSON.stringify(j)`. */
  function Serialize(j: Json): string
    decreases j
  {
    match j
    case JNull => "null"
    case JBool(b) => if b then "true" else "false"
    case JNum(n) => IntToString(n)
    case JStr(s) => Quote(s)
    case JArr(items) =>
      "[" + Join(seq(|items|, i requires 0 <= i < |items| => Serialize(items[i])), ",") + "]"
    case JObj(fields) =>
      "{" + Join(seq(|fields|, i requires 0 <= i < |fields| =>
        assert fields[i] in fields;
        Quote(fields[i].0) + ":" + Serialize(fields[i].1)), ",") + "}"
  }

  ghost predicate OccursAt(s: string, sub: string, i: int)
  {
    0 <= i && i + |sub| <= |s| && s[i..i + |sub|] == sub
  }

  /** `s.includes(sub)`. */
  function Includes(s: string, sub: string): (r: bool)
    ensures r <==> exists i :: OccursAt(s, sub, i)
    decreases |s|
  {
    if |sub| > |s| then
      assert forall i :: !OccursAt(s, sub, i);
      false
    else if s[..|sub|] == sub then
      assert OccursAt(s, sub, 0);
      true
    else
      var r := Includes(s[1..], sub);
      assert forall i :: OccursAt(s[1..], sub, i) <==> OccursAt(s, sub, i + 1);
      assert !OccursAt(s, sub, 0);
      assert forall i :: OccursAt(s, sub, i) ==> i == 0 || OccursAt(s[1..], sub, i - 1);
      r
  }

  /** `s.includes(c)` for a one-character needle is plain membership. */
  lemma IncludesChar(s: string, c: char)
    ensures Includes(s, [c]) <==> c in s
  {
    if c in s {
      var i :| 0 <= i < |s| && s[i] == c;
      assert s[i..i + 1] == [c];
      assert OccursAt(s, [c], i);
    }
    if Includes(s, [c]) {
      var i :| OccursAt(s, [c], i);
      assert s[i] == s[i..i + 1][0];
    }
  }

  /** A concatenation splits back into its parts, and contains its middle
      part. */
  lemma ConcatParts(a: string, b: string, c: string)
    ensures var t := a + b + c;
      && t[..|a|] == a && t[|a|..|a| + |b|] == b && t[|a| + |b|..] == c
      && Includes(t, b)
  {
    var t := a + b + c;
    assert t[|a|..|a| + |b|] == b;
    assert OccursAt(t, b, |a|);
  }

  /** A pattern holding a character the text lacks never occurs in it. */
  lemma MissingCharExcludes(s: string, sub: string, k: nat)
    requires k < |sub| && sub[k] !in s
    ensures !Includes(s, sub)
  {
    forall i ensures !OccursAt(s, sub, i) {
      if 0 <= i && i + |sub| <= |s| {
        assert s[i..i + |sub|][k] == s[i + k];
        assert s[i + k] in s;
      }
    }
  }

  /** The empty string occurs in every string. */
  lemma IncludesEmpty(s: string)
    ensures Includes(s, "")
  {
    assert OccursAt(s, "", 0);
  }

  /** JavaScript's WhiteSpace and LineTerminator code points, which `trim` strips. */
  predicate IsSpace(c: char)
  {
    || c == ' ' || c == '\t' || c == '\n' || c == '\r'
    || c as int == 0x0B || c as int == 0x0C || c as int == 0xA0 || c as int == 0x1680
    || (0x2000 <= c as int <= 0x200A) || c as int == 0x2028 || c as int == 0x2029
    || c as int == 0x202F || c as int == 0x205F || c as int == 0x3000 || c as int == 0xFEFF
  }

  function TrimStart(s: string): (r: string)
    ensures |r| <= |s| && r == s[|s| - |r|..]
    ensures forall i :: 0 <= i < |s| - |r| ==> IsSpace(s[i])
    ensures r == [] || !IsSpace(r[0])
  {
    if |s| > 0 && IsSpace(s[0]) then TrimStart(s[1..]) else s
  }

  function TrimEnd(s: string): (r: string)
    ensures |r| <= |s| && r == s[..|r|]
    ensures forall i :: |r| <= i < |s| ==> IsSpace(s[i])
    ensures r == [] || !IsSpace(r[|r| - 1])
  {
    if |s| > 0 && IsSpace(s[|s| - 1]) then TrimEnd(s[..|s| - 1]) else s
  }

  /** `s.trim()`: a contiguous slice of `s` with only white space cut away at either end. */
  function Trim(s: string): (r: string)
    ensures exists a, b :: SpaceOutside(s, a, b) && r == s[a..b]
    ensures r == [] || (!IsSpace(r[0]) && !IsSpace(r[|r| - 1]))
    ensures r == [] <==> forall i :: 0 <= i < |s| ==> IsSpace(s[i])
  {
    var t := TrimStart(s);
    var r := TrimEnd(t);
    SpaceAfterTrimEnd(s, t, r);
    if r == [] then AllSpace(s, t); r else r
  }

  /** Every character of `s` before `a` and from `b` on is white space. */
  ghost predicate SpaceOutside(s: string, a: int, b: int)
  {
    && 0 <= a <= b <= |s|
    && (forall i :: 0 <= i < a ==> IsSpace(s[i]))
    && (forall i :: b <= i < |s| ==> IsSpace(s[i]))
  }

  /** What `TrimStart` and then `TrimEnd` cut away is white space. */
  lemma SpaceAfterTrimEnd(s: string, t: string, r: string)
    requires |t| <= |s| && t == s[|s| - |t|..]
    requires forall i :: 0 <= i < |s| - |t| ==> IsSpace(s[i])
    requires |r| <= |t| && r == t[..|r|]
    requires forall i :: |r| <= i < |t| ==> IsSpace(t[i])
    ensures exists a, b :: SpaceOutside(s, a, b) && r == s[a..b]
  {
    var a := |s| - |t|;
    assert r == s[a..a + |r|];
    forall i | a + |r| <= i < |s| ensures IsSpace(s[i]) {
      assert s[i] == t[i - a];
    }
    assert SpaceOutside(s, a, a + |r|);
  }

  lemma AllSpace(s: string, t: string)
    requires |t| <= |s| && t == s[|s| - |t|..]
    requires forall i :: 0 <= i < |s| - |t| ==> IsSpace(s[i])
    requires forall i :: 0 <= i < |t| ==> IsSpace(t[i])
    ensures forall i :: 0 <= i < |s| ==> IsSpace(s[i])
  {
    forall i | 0 <= i < |s|
      ensures IsSpace(s[i])
    {
      if i >= |s| - |t| {
        assert s[i] == t[i - (|s| - |t|)];
      }
    }
  }

  /** `s.length`: JavaScript counts UTF-16 code units, so a code point above
      U+FFFF counts twice. */
  function Utf16Length(s: string): (n: nat)
    ensures |s| <= n <= 2 * |s|
    ensures (forall i :: 0 <= i < |s| ==> s[i] as int <= 0xFFFF) ==> n == |s|
  {
    if |s| == 0 then 0
    else (if s[0] as int > 0xFFFF then 2 else 1) + Utf16Length(s[1..])
  }

  /** The Cyrillic blocks (U+0460 to U+052F) where a capital at an even
      code point is followed by its small letter, apart from the signs
      U+0482 to U+0489 and the run U+04C0 to U+04CF. */
  predicate InEvenPairs(n: int)
  {
    0x460 <= n <= 0x481 || 0x48A <= n <= 0x4BF || 0x4D0 <= n <= 0x52F
  }

  /** The capitals this model lowers: A to Z; the Latin-1 capitals (U+00C0 to
      U+00DE but the multiplication sign); and the Cyrillic capitals:
      U+0400 to U+042F, the even members of the paired blocks, the odd ones
      of U+04C1 to U+04CE, and palochka U+04C0. */
  predicate IsCapital(c: char)
  {
    var n := c as int;
    || 'A' <= c <= 'Z'
    || (0xC0 <= n <= 0xDE && n != 0xD7)
    || 0x400 <= n <= 0x42F
    || (InEvenPairs(n) && n % 2 == 0)
    || (0x4C1 <= n <= 0x4CE && n % 2 == 1)
    || n == 0x4C0
  }

  /** `toLowerCase` for one code point: a capital becomes its small letter,
      anything else is kept. */
  function LowerChar(c: char): (r: char)
    ensures !IsCapital(r)
    ensures r == c <==> !IsCapital(c)
    ensures IsCapital(c) && c as int >= 0x460 ==> r as int == if c as int == 0x4C0 then 0x4CF else c as int + 1
  {
    var n := c as int;
    if 'A' as int <= n <= 'Z' as int then (n + 32) as char
    else if (0xC0 <= n <= 0xDE && n != 0xD7) then (n + 32) as char
    else if 0x400 <= n <= 0x40F then (n + 0x50) as char
    else if 0x410 <= n <= 0x42F then (n + 0x20) as char
    else if InEvenPairs(n) && n % 2 == 0 then (n + 1) as char
    else if 0x4C1 <= n <= 0x4CE && n % 2 == 1 then (n + 1) as char
    else if n == 0x4C0 then 0x4CF as char
    else c
  }

  function Lower(s: string): (r: string)
    ensures |r| == |s|
    ensures forall i :: 0 <= i < |s| ==> r[i] == LowerChar(s[i])
    ensures forall i :: 0 <= i < |r| ==> !IsCapital(r[i])
    ensures forall i :: 0 <= i < |s| && !IsCapital(s[i]) ==> r[i] == s[i]
  {
    seq(|s|, i requires 0 <= i < |s| => LowerChar(s[i]))
  }

  /** Lowercasing twice is lowercasing once. */
  lemma LowerIdempotent(s: string)
    ensures Lower(Lower(s)) == Lower(s)
  {
    forall i | 0 <= i < |s| ensures Lower(Lower(s))[i] == Lower(s)[i] {
      LowerCharIdempotent(s[i]);
    }
  }

  lemma LowerCharIdempotent(c: char)
    ensures LowerChar(LowerChar(c)) == LowerChar(c)
  {
  }
}

=== FILE: layout.dfy ===
/**
 The root layout: the authentication gate every route passes through, the
 frame it renders, and the header's menu and logout.
 */
module Layout {
  import opened Js
  import opened Storage
  import Lists

  /** What `checkAuth` decides: whether the visitor counts as signed in, where
      the router is sent (if anywhere), the user it loaded (`None` when it
      loads none) and the store it leaves. */
  datatype Gate = Gate(authenticated: bool, redirect: Option<string>, user: Option<Json>, store: Store)

  /** Only the sign-in and sign-up pages, matched exactly, are public. */
  predicate IsPublic(path: string)
    ensures IsPublic(path) ==> |path| > 1 && path[0] == '/' && path[|path| - 1] != '/'
  {
    path == "/login" || path == "/register"
  }

  /** `checkAuth` for the current path. */
  function CheckAuth(st: Store, path: string): (r: Gate)
    ensures r.store != st ==> HasToken(st) && !IsPublic(path) && ParseStoredUser(st).None?
    ensures r.authenticated ==> HasToken(st) && r.store == st
    ensures r.user.Some? ==> r.authenticated && !IsPublic(path)
  {
    var token := HasToken(st);
    var public := IsPublic(path);
    if !token && !public then Gate(false, Some("/login"), None, st)
    else if token && public then Gate(true, Some("/"), None, st)
    else if token && !public then
      match ParseStoredUser(st)
      case Some(u) => Gate(true, None, Some(u), st)
      case None => Gate(false, Some("/login"), None, ClearSession(st))
    else Gate(false, None, None, st)
  }

  /** What the layout renders around a page. */
  datatype Frame =
    | Bare          // the page alone
    | Checking      // the "checking authorisation" spinner
    | Denied        // the "access denied" notice with a sign-in link
    | WithHeader    // the header and the page

  /** The frame for `path`, given the gate's verdict so far (`None` before
      `checkAuth` has settled). */
  function FrameFor(path: string, authenticated: Option<bool>): (f: Frame)
    ensures f == WithHeader <==> !IsPublic(path) && authenticated == Some(true)
    ensures f == Bare <==> IsPublic(path)
  {
    if IsPublic(path) then Bare
    else if authenticated.None? then Checking
    else if !authenticated.value then Denied
    else WithHeader
  }

  datatype NavItem = NavItem(href: string, title: string, adminOnly: bool)

  const NavItems := [
    NavItem("/", "Дашборд", false),
    NavItem("/users", "Пользователи", true),
    NavItem("/expenses", "Расходы", false),
    NavItem("/categories", "Категории", false),
    NavItem("/reports", "Отчеты", false)
  ]

  /** `user?.role === 'admin'`. */
  predicate IsAdmin(user: Option<Json>)
  {
    user.Some? && Member(user.value, "role") == Some(JStr("admin"))
  }

  /** The header's menu: admin-only entries only for an admin. */
  function VisibleNav(user: Option<Json>): (r: seq<NavItem>)
    ensures forall item :: item in r <==> item in NavItems && (!item.adminOnly || IsAdmin(user))
  {
    Lists.Filter(NavItems, (item: NavItem) => !(item.adminOnly && !IsAdmin(user)))
  }

  /** `handleLogout`: the token and the cached user go, the browser goes to
      the sign-in page. */
  function Logout(st: Store): (r: (Store, string))
    ensures r.1 == "/login"
    ensures TokenKey !in r.0 && UserKey !in r.0 && !HasToken(r.0)
    ensures forall k :: k != TokenKey && k != UserKey ==> (k in r.0 <==> k in st) && (k in st ==> r.0[k] == st[k])
  {
    (ClearSession(st), "/login")
  }

  /** Public paths are matched exactly: anything longer than `/login` or
      `/register`, such as a trailing slash, and the root itself are
      private. */
  lemma PublicPathsExact(path: string, rest: string)
    requires IsPublic(path) && rest != ""
    ensures !IsPublic(path + rest)
    ensures !IsPublic("/") && !IsPublic(path + "/")
  {
    var longer := path + rest;
    assert |longer| > |path| && longer[1] == path[1];
    if path == "/login" {
      assert longer[1] == 'l' && "/register"[1] == 'r';
    }
  }

  /** The gate's decision table, case by case. */
  lemma GateTable(st: Store, path: string)
    ensures !HasToken(st) && !IsPublic(path) ==> CheckAuth(st, path) == Gate(false, Some("/login"), None, st)
    ensures HasToken(st) && IsPublic(path) ==> CheckAuth(st, path) == Gate(true, Some("/"), None, st)
    ensures HasToken(st) && !IsPublic(path) && ParseStoredUser(st).Some? ==>
      CheckAuth(st, path) == Gate(true, None, ParseStoredUser(st), st)
    ensures HasToken(st) && !IsPublic(path) && ParseStoredUser(st).None? ==>
      CheckAuth(st, path) == Gate(false, Some("/login"), None, st - {TokenKey, UserKey})
    ensures !HasToken(st) && IsPublic(path) ==> CheckAuth(st, path) == Gate(false, None, None, st)
  {
  }

  /** Nobody is left on a private page unauthenticated: the gate either lets
      the visitor in or sends them to sign in, and after it has run the
      frame of a private page is never the header without a token. */
  lemma PrivatePagesNeedToken(st: Store, path: string)
    requires !IsPublic(path)
    ensures var g := CheckAuth(st, path);
      && (g.authenticated || g.redirect == Some("/login"))
      && (FrameFor(path, Some(g.authenticated)) == WithHeader ==> HasToken(st) && g.user.Some?)
  {
  }

  /** A user with no stored record (`'{}'` is parsed) passes the gate with an
      empty profile; a user stored as the text "undefined", as the login
      page leaves behind for a response without `user`, is signed out. */
  lemma StoredUserShapes(st: Store, path: string)
    requires HasToken(st) && !IsPublic(path)
    ensures UserKey !in st ==> CheckAuth(st, path) == Gate(true, None, Some(EmptyObject), st)
    ensures UserKey in st && st[UserKey] == Raw("undefined") ==>
      CheckAuth(st, path) == Gate(false, Some("/login"), None, ClearSession(st))
  {
  }

  /** An admin sees the whole menu; anybody else sees it without the users
      entry, the remaining entries keeping their order. */
  lemma NavByRole(user: Option<Json>)
    ensures IsAdmin(user) ==> VisibleNav(user) == NavItems
    ensures !IsAdmin(user) ==> VisibleNav(user) == [NavItems[0]] + NavItems[2..]
  {
    var keep := (item: NavItem) => !(item.adminOnly && !IsAdmin(user));
    if IsAdmin(user) {
      Lists.FilterAll(NavItems, keep);
    } else {
      assert NavItems[2..] == [NavItems[2], NavItems[3], NavItems[4]];
      assert Lists.Filter(NavItems[4..], keep) == [NavItems[4]];
      assert Lists.Filter(NavItems[3..], keep) == [NavItems[3], NavItems[4]];
      assert Lists.Filter(NavItems[2..], keep) == [NavItems[2], NavItems[3], NavItems[4]];
      assert Lists.Filter(NavItems[1..], keep) == [NavItems[2], NavItems[3], NavItems[4]];
    }
  }
}

=== FILE: lists.dfy ===
/**
 The in-memory list operations the screens share: `Array.prototype.filter`
 and `Array.prototype.map`, with the order facts the screens rely on.
 */
module Lists {

  /** `xs.filter(keep)`. */
  function Filter<T(!new)>(xs: seq<T>, keep: T -> bool): (r: seq<T>)
    ensures |r| <= |xs|
    ensures forall x :: x in r <==> x in xs && keep(x)
    ensures forall i :: 0 <= i < |r| ==> keep(r[i])
  {
    if |xs| == 0 then []
    else
      var rest := Filter(xs[1..], keep);
      assert forall x :: x in xs <==> x == xs[0] || x in xs[1..];
      if keep(xs[0]) then [xs[0]] + rest else rest
  }

  /** `xs.map(f)`. */
  function Map<T, U>(xs: seq<T>, f: T -> U): (r: seq<U>)
    ensures |r| == |xs|
    ensures forall i :: 0 <= i < |xs| ==> r[i] == f(xs[i])
  {
    if |xs| == 0 then [] else [f(xs[0])] + Map(xs[1..], f)
  }

  /** `ys` is `xs` with some elements left out and the rest in their order. */
  ghost predicate IsSubsequence<T>(ys: seq<T>, xs: seq<T>)
  {
    exists pick: seq<nat> :: Picks(pick, ys, xs)
  }

  /** `pick` lists, in increasing order, the positions of `xs` that make up `ys`. */
  ghost predicate Picks<T>(pick: seq<nat>, ys: seq<T>, xs: seq<T>)
  {
    && |pick| == |ys|
    && (forall i :: 0 <= i < |pick| ==> pick[i] < |xs| && ys[i] == xs[pick[i]])
    && (forall i, j :: 0 <= i < j < |pick| ==> pick[i] < pick[j])
  }

  /** How many elements of `xs` satisfy `p`. */
  function Count<T>(xs: seq<T>, p: T -> bool): nat
  {
    if |xs| == 0 then 0 else (if p(xs[0]) then 1 else 0) + Count(xs[1..], p)
  }

  /** A filter keeps its survivors in their original order. */
  lemma {:induction false} FilterIsSubsequence<T(!new)>(xs: seq<T>, keep: T -> bool)
    ensures IsSubsequence(Filter(xs, keep), xs)
  {
    if |xs| == 0 {
      var pick: seq<nat> := [];
      assert Picks(pick, Filter(xs, keep), xs);
    } else {
      FilterIsSubsequence(xs[1..], keep);
      var rest := Filter(xs[1..], keep);
      var p: seq<nat> :| Picks(p, rest, xs[1..]);
      if keep(xs[0]) {
        assert Filter(xs, keep) == [xs[0]] + rest;
        PicksTake(p, rest, xs);
      } else {
        PicksSkip(p, rest, xs);
      }
    }
  }

  /** Positions picked from the tail of `xs`, moved one place on. */
  function Shift(p: seq<nat>): (q: seq<nat>)
    ensures |q| == |p| && forall i :: 0 <= i < |p| ==> q[i] == p[i] + 1
  {
    seq(|p|, i requires 0 <= i < |p| => p[i] + 1)
  }

  lemma PicksSkip<T>(p: seq<nat>, ys: seq<T>, xs: seq<T>)
    requires |xs| > 0 && Picks(p, ys, xs[1..])
    ensures Picks(Shift(p), ys, xs)
  {
    var q := Shift(p);
    forall i | 0 <= i < |q| ensures q[i] < |xs| && ys[i] == xs[q[i]] {
      assert xs[1..][p[i]] == xs[p[i] + 1];
    }
  }

  lemma PicksTake<T>(p: seq<nat>, ys: seq<T>, xs: seq<T>)
    requires |xs| > 0 && Picks(p, ys, xs[1..])
    ensures Picks([0] + Shift(p), [xs[0]] + ys, xs)
  {
    PicksSkip(p, ys, xs);
    var q := [0] + Shift(p);
    var zs := [xs[0]] + ys;
    forall i | 0 < i < |q| ensures q[i] < |xs| && zs[i] == xs[q[i]] {
      assert q[i] == Shift(p)[i - 1] && zs[i] == ys[i - 1];
    }
  }

  /** A filter keeps exactly as many elements as satisfy its test. */
  lemma {:induction false} FilterCount<T(!new)>(xs: seq<T>, keep: T -> bool)
    ensures |Filter(xs, keep)| == Count(xs, keep)
  {
    if |xs| > 0 {
      FilterCount(xs[1..], keep);
    }
  }

  /** Every element satisfies exactly one of two complementary tests. */
  lemma {:induction false} CountComplement<T>(xs: seq<T>, p: T -> bool, q: T -> bool)
    requires forall x :: q(x) == !p(x)
    ensures Count(xs, p) + Count(xs, q) == |xs|
  {
    if |xs| > 0 {
      CountComplement(xs[1..], p, q);
    }
  }

  /** A filter whose test holds everywhere changes nothing. */
  lemma {:induction false} FilterAll<T(!new)>(xs: seq<T>, keep: T -> bool)
    requires forall i :: 0 <= i < |xs| ==> keep(xs[i])
    ensures Filter(xs, keep) == xs
  {
    if |xs| > 0 {
      assert forall i :: 0 <= i < |xs[1..]| ==> keep(xs[1..][i]) by {
        forall i | 0 <= i < |xs[1..]| ensures keep(xs[1..][i]) {
          assert xs[1..][i] == xs[i + 1];
        }
      }
      FilterAll(xs[1..], keep);
      assert [xs[0]] + xs[1..] == xs;
    }
  }
}

=== FILE: login.dfy ===
/**
 `handleLogin` of the login page: store the tokens the server hands out,
 or classify whatever was thrown into a message for the form.
 */
module LoginPage {
  import opened Js
  import opened Storage
  import opened Errors
  import Api

  const WrongCredentialsText := "Неверный email или пароль"
  const ServerDownText := "Не удалось подключиться к серверу. Проверьте, запущен ли бэк"
  const NoTokenText := "Нет токена в ответе"
  const LoginFallbackText := "Ошибка входа"

  datatype LoginView = LoginView(error: string, loading: bool)

  /** The form after an attempt, with the session it leaves: the store, the
      navigation and the fetches issued. */
  datatype LoginEffect = LoginEffect(view: LoginView, session: Api.Session)

  /** Which branch of the catch block runs; `CatchThrows` when reading the
      error's `status` or `message` throws in turn. */
  datatype Verdict = WrongCredentials | ServerDown | Shown(text: string) | CatchThrows

  function Describe(message: string): Verdict
  {
    if Includes(message, "Failed to fetch") then ServerDown
    else Shown(if message != "" then message else LoginFallbackText)
  }

  /** The catch block: `status === 401` first, then a network failure, then
      the message itself. */
  function Classify(e: Thrown): Verdict
  {
    match e
    case ApiError(_, m, status, _) => if status == 401 then WrongCredentials else Describe(m)
    case PlainError(m) => Describe(m)
    case NonError(v) =>
      if v.JNull? then CatchThrows
      else if Member(v, "status") == Some(JNum(401)) then WrongCredentials
      else
        match Member(v, "message")
        case Some(JStr(m)) => Describe(m)
        case _ => CatchThrows
  }

  function VerdictText(v: Verdict): string
  {
    match v
    case WrongCredentials => WrongCredentialsText
    case ServerDown => ServerDownText
    case Shown(t) => t
    case CatchThrows => ""
  }

  /** The form as the attempt starts: error cleared, loading on. */
  function Begin(v: LoginView): (r: LoginView)
    ensures r.loading && r.error == ""
  {
    LoginView("", true)
  }

  /** The catch block followed by `finally`: the message (if the catch block
      does not throw), loading off, store and location untouched. */
  function Caught(e: Thrown, s: Api.Session): LoginEffect
  {
    LoginEffect(LoginView(VerdictText(Classify(e)), false), s)
  }

  /** The call returned a non-null value with a truthy `accessToken`: the
      only outcome after which the page stores the session and leaves. */
  predicate SignedIn(result: Api.Outcome)
  {
    result.Returned? && !result.value.JNull? && Truthy(Member(result.value, "accessToken"))
  }

  /** What the page does once `api.login` settles with `result`. */
  function Finish(s: Api.Session, result: Api.Outcome): LoginEffect
  {
    match result
    case Diverged => LoginEffect(LoginView("", true), s)
    case Threw(e) => Caught(e, s)
    case Returned(data) =>
      if data.JNull? then Caught(NullMember, s)
      else
        var access := Member(data, "accessToken");
        if Truthy(access) then
          var withToken := SetItem(s.store, TokenKey, access);
          var refresh := Member(data, "refreshToken");
          var withRefresh := if Truthy(refresh) then SetItem(withToken, RefreshTokenKey, refresh) else withToken;
          LoginEffect(LoginView("", false), s.(store := SetJson(withRefresh, UserKey, Member(data, "user")), location := Some("/")))
        else Caught(PlainError(NoTokenText), s)
  }

  /** The whole handler: start, call `api.login` at the base URL that
      `NEXT_PUBLIC_API_URL` gives (`env`), finish. */
  function HandleLogin(env: Option<string>, net: Api.Network, s: Api.Session, email: string, password: string): (r: LoginEffect)
    ensures !r.view.loading
    ensures r.session.log == s.log + [Api.LoginFetch(Api.ApiUrl(env), email, password)]
    ensures var o := Api.Login(Api.ApiUrl(env), net, s, email, password).outcome;
      SignedIn(o) ==>
        && r.session.location == Some("/")
        && TokenKey in r.session.store && r.session.store[TokenKey] == Raw(ToStr(Member(o.value, "accessToken")))
        && r.view.error == ""
    ensures var o := Api.Login(Api.ApiUrl(env), net, s, email, password).outcome;
      o.Threw? ==> r.view.error == VerdictText(Classify(o.error))
    ensures var o := Api.Login(Api.ApiUrl(env), net, s, email, password).outcome;
      o.Returned? && !SignedIn(o) ==> r.view.error == (if o.value.JNull? then VerdictText(Classify(NullMember)) else NoTokenText)
    ensures var o := Api.Login(Api.ApiUrl(env), net, s, email, password).outcome;
      !SignedIn(o) ==> r.session.store == s.store && r.session.location == s.location
    ensures r.session.location != s.location ==> r.session.location == Some("/")
    ensures r.session.store != s.store ==> r.session.location == Some("/") && TokenKey in r.session.store
    ensures r.view.error != "" ==> r.session.store == s.store && r.session.location == s.location
  {
    var step := Api.Login(Api.ApiUrl(env), net, s, email, password);
    NoTokenTextShown();
    if SignedIn(step.outcome) then
      StoresTokens(step.session, step.outcome.value);
      Finish(step.session, step.outcome)
    else Finish(step.session, step.outcome)
  }

  /** A response with a truthy `accessToken` stores it as `token`, stores
      `refreshToken` only when that is truthy too, stores the user (as the
      text "undefined" when the response has none), leaves every other key
      alone and navigates to the dashboard. */
  lemma StoresTokens(s: Api.Session, data: Json)
    requires data != JNull && Truthy(Member(data, "accessToken"))
    ensures var r := Finish(s, Api.Returned(data));
      var st := s.store;
      var refresh := Member(data, "refreshToken");
      && r.view == LoginView("", false)
      && r.session.location == Some("/") && r.session.log == s.log
      && r.session.store[TokenKey] == Raw(ToStr(Member(data, "accessToken")))
      && (Truthy(refresh) ==> r.session.store[RefreshTokenKey] == Raw(ToStr(refresh)))
      && (!Truthy(refresh) ==> (RefreshTokenKey in r.session.store <==> RefreshTokenKey in st))
      && (!Truthy(refresh) && RefreshTokenKey in st ==> r.session.store[RefreshTokenKey] == st[RefreshTokenKey])
      && (Member(data, "user").Some? ==> r.session.store[UserKey] == Encoded(Member(data, "user").value))
      && (Member(data, "user").None? ==> r.session.store[UserKey] == Raw("undefined"))
      && (forall k :: k !in {TokenKey, RefreshTokenKey, UserKey} ==> (k in r.session.store <==> k in st) && (k in st ==> r.session.store[k] == st[k]))
  {
  }

  /** A response without an access token is an error, shown by its own text,
      and nothing is stored. */
  lemma MissingTokenIsError(s: Api.Session, data: Json)
    requires data != JNull && !Truthy(Member(data, "accessToken"))
    ensures Finish(s, Api.Returned(data)) == LoginEffect(LoginView(NoTokenText, false), s)
  {
    NoTokenTextShown();
    assert Finish(s, Api.Returned(data)) == Caught(PlainError(NoTokenText), s);
  }

  /** The missing-token text mentions no failed fetch, so it is shown as is. */
  lemma NoTokenTextShown()
    ensures Classify(PlainError(NoTokenText)) == Shown(NoTokenText)
  {
    MissingCharExcludes(NoTokenText, "Failed to fetch", 0);
  }

  /** The order of the catch block: status 401 wins over everything, then a
      message mentioning a failed fetch, then the message or the fallback. */
  lemma ClassificationOrder(m: string, status: int, data: Value)
    ensures Classify(ApiError(ClientClass, m, status, data)) ==
      if status == 401 then WrongCredentials
      else if Includes(m, "Failed to fetch") then ServerDown
      else if m == "" then Shown(LoginFallbackText)
      else Shown(m)
    ensures Classify(PlainError(m)) ==
      if Includes(m, "Failed to fetch") then ServerDown
      else if m == "" then Shown(LoginFallbackText)
      else Shown(m)
  {
  }

  /** `api.login` throws plain errors without a status, so the
      wrong-credentials branch is dead: whatever the server answers, the page
      never takes it. */
  lemma WrongCredentialsUnreachable(env: Option<string>, net: Api.Network, s: Api.Session, email: string, password: string)
    ensures var step := Api.Login(Api.ApiUrl(env), net, s, email, password);
      step.outcome.Threw? ==> Classify(step.outcome.error) != WrongCredentials
    ensures var r := HandleLogin(env, net, s, email, password);
      r.view.error == WrongCredentialsText ==> Api.Login(Api.ApiUrl(env), net, s, email, password).outcome.Threw?
  {
    var base := Api.ApiUrl(env);
    Api.AuthErrorShapes(base, net, s, email, password, "");
  }

  /** The form is loading while the attempt runs and never after it settles,
      whatever the outcome. */
  lemma LoadingLifecycle(v: LoginView, s: Api.Session, result: Api.Outcome)
    requires !result.Diverged?
    ensures Begin(v).loading
    ensures !Finish(s, result).view.loading
  {
  }
}

=== FILE: register.dfy ===
/**
 `handleRegister` of the sign-up page: an ordered chain of form checks, the
 call to `api.register`, storing the session it hands out, and the catch
 block that turns whatever was thrown into a message.
 */
module RegisterPage {
  import opened Js
  import opened Storage
  import opened Errors
  import Api

  datatype Form = Form(email: string, password: string, confirmPassword: string, name: string)

  const AllFieldsText := "Все поля должны быть заполнены"
  const MismatchText := "Пароли не совпадают"
  const ShortPasswordText := "Пароль должен быть не менее 6 символов"
  const BadEmailText := "Введите корректный email адрес"
  const ShortNameText := "Имя должно содержать не менее 2 символов"
  const NoTokenText := "Нет токена в ответе от сервера"
  const DefaultMessage := "Ошибка регистрации"
  const ExistsText := "Пользователь с таким email уже существует"
  const BadDataText := "Некорректные данные. Проверьте введенные данные"
  const ValidationText := "Ошибка валидации данных"
  const FallbackText := "Ошибка регистрации. Проверьте консоль для деталей."

  const ConnectionLead := "Не удалось подключиться к серверу: "
  const ConnectionHints := "\n    \nВозможные причины:\n"
    + "1. Бэкенд не запущен или запущен на другом порту\n"
    + "2. Проверьте CORS настройки на бэкенде\n"
    + "3. Порт бэкенда: 3000, порт фронтенда: 3001 (они должны быть разными)"

  /** The connection-failure text, naming the API base URL. */
  function ConnectionMessage(apiUrl: string): string
  {
    ConnectionLead + apiUrl + ConnectionHints
  }

  /** The error line of the form: cleared, a fixed or server-given text, or
      the connection-failure text for the API base URL, kept symbolic until
      it is shown. */
  datatype Notice = Cleared | Says(text: string) | CannotConnect(apiUrl: string)

  /** The text the form displays for a notice. */
  function Shown(n: Notice): string
  {
    match n
    case Cleared => ""
    case Says(t) => t
    case CannotConnect(apiUrl) => ConnectionMessage(apiUrl)
  }

  // ---------------------------------------------------------------- checks

  predicate AllFilled(f: Form)
  {
    f.email != "" && f.password != "" && f.confirmPassword != "" && f.name != ""
  }

  /** The checks in the order the page runs them, each with the message shown
      when it fails. */
  function Checks(f: Form): seq<(bool, string)>
  {
    [ (AllFilled(f), AllFieldsText),
      (f.password == f.confirmPassword, MismatchText),
      (Utf16Length(f.password) >= 6, ShortPasswordText),
      (Includes(f.email, "@") && Includes(f.email, "."), BadEmailText),
      (Utf16Length(Trim(f.name)) >= 2, ShortNameText) ]
  }

  /** The message of the first failing check, if any. */
  function FirstFailure(checks: seq<(bool, string)>): (r: Option<string>)
    ensures r.None? <==> forall i :: 0 <= i < |checks| ==> checks[i].0
    ensures r.Some? ==> exists i :: 0 <= i < |checks| && !checks[i].0 && r.value == checks[i].1
                                  && forall j :: 0 <= j < i ==> checks[j].0
  {
    if |checks| == 0 then None
    else if !checks[0].0 then Some(checks[0].1)
    else
      var r := FirstFailure(checks[1..]);
      assert forall i :: 0 < i < |checks| ==> checks[i] == checks[1..][i - 1];
      if r.Some? then
        var k :| 0 <= k < |checks[1..]| && !checks[1..][k].0 && r.value == checks[1..][k].1
                 && forall j :: 0 <= j < k ==> checks[1..][j].0;
        assert !checks[k + 1].0 && r.value == checks[k + 1].1 && forall j :: 0 <= j < k + 1 ==> checks[j].0;
        r
      else r
  }

  /** The validation block of `handleRegister`: the error it sets, or `None`
      when the form goes through. */
  function Validate(f: Form): (r: Option<string>)
    ensures !AllFilled(f) ==> r == Some(AllFieldsText)
    ensures r.Some? ==> r.value in [AllFieldsText, MismatchText, ShortPasswordText, BadEmailText, ShortNameText]
    ensures r.None? ==>
      && AllFilled(f) && f.password == f.confirmPassword && Utf16Length(f.password) >= 6
      && Utf16Length(Trim(f.name)) >= 2
  {
    if !AllFilled(f) then Some(AllFieldsText)
    else if f.password != f.confirmPassword then Some(MismatchText)
    else if Utf16Length(f.password) < 6 then Some(ShortPasswordText)
    else if !Includes(f.email, "@") || !Includes(f.email, ".") then Some(BadEmailText)
    else if Utf16Length(Trim(f.name)) < 2 then Some(ShortNameText)
    else None
  }

  // ---------------------------------------------------------- error record

  /** What the catch block extracts from the thrown value. */
  datatype Facts = Facts(message: string, status: int, data: Value)

  /** `message` if it is a string, `status` if it is a number, `data` if the
      property exists (an `ApiError` always has one, possibly `undefined`),
      and the `Error`'s own message for `Error` instances. */
  function Extract(e: Thrown): Facts
  {
    match e
    case ApiError(_, m, status, data) => Facts(m, status, data)
    case PlainError(m) => Facts(m, 0, Some(EmptyObject))
    case NonError(v) =>
      if v.JObj? then
        Facts(match Member(v, "message") case Some(JStr(m)) => m case _ => DefaultMessage,
              match Member(v, "status") case Some(JNum(n)) => n case _ => 0,
              if Member(v, "data").Some? then Member(v, "data") else Some(EmptyObject))
      else Facts(DefaultMessage, 0, Some(EmptyObject))
  }

  /** Which branch of the catch block runs; `CatchThrows` when the block
      itself throws, which it does for a 422 whose `errors` is not an array. */
  datatype Reason =
    | Exists
    | BadData
    | Listed(errors: seq<Json>)
    | Invalid
    | NoConnection
    | Own(message: string)
    | CatchThrows

  /** The catch block's decision on the facts it extracted. */
  function Diagnose(e: Thrown): Reason
  {
    var x := Extract(e);
    if x.status == 409 then Exists
    else if x.status == 400 then BadData
    else if x.status == 422 then
      if x.data.Some? && x.data.value.JObj? && Member(x.data.value, "errors").Some? then
        match Member(x.data.value, "errors")
        case Some(JArr(items)) => Listed(items)
        case _ => CatchThrows
      else Invalid
    else if Includes(x.message, "Failed to fetch") || x.status == 0 then NoConnection
    else Own(x.message)
  }

  /** The error each branch sets; `None` when the block throws. */
  function ReasonNotice(r: Reason, apiUrl: string): Option<Notice>
  {
    match r
    case Exists => Some(Says(ExistsText))
    case BadData => Some(Says(BadDataText))
    case Listed(items) => Some(Says(JoinItems(items, ", ")))
    case Invalid => Some(Says(ValidationText))
    case NoConnection => Some(CannotConnect(apiUrl))
    case Own(m) => Some(Says(if m != "" then m else FallbackText))
    case CatchThrows => None
  }

  /** The error the catch block sets. */
  function ErrorMessage(e: Thrown, apiUrl: string): Option<Notice>
  {
    ReasonNotice(Diagnose(e), apiUrl)
  }

  // ---------------------------------------------------------------- handler

  datatype View = View(error: Notice, loading: bool, success: bool)

  /** The form after a submission, the session (store and fetches) and the
      navigation scheduled two seconds later. */
  datatype Effect = Effect(view: View, session: Api.Session, redirect: Option<string>)

  /** The catch block: the message it sets (the error stays cleared when
      the block throws), the form still as it was otherwise. */
  function Caught(v: View, s: Api.Session, e: Thrown, apiUrl: string, resetLoading: bool): Effect
  {
    var m := ErrorMessage(e, apiUrl);
    Effect(View(if m.Some? then m.value else Cleared, !resetLoading, v.success), s, None)
  }

  /** The call returned a non-null value with a truthy `accessToken`: the
      only outcome after which the page stores the session and leaves. */
  predicate Registered(result: Api.Outcome)
  {
    result.Returned? && !result.value.JNull? && Truthy(Member(result.value, "accessToken"))
  }

  /** What becomes of a call to `api.register` that settled with `result`. */
  function Finish(v: View, s: Api.Session, result: Api.Outcome, apiUrl: string, resetLoading: bool): (r: Effect)
    ensures r.session.log == s.log && r.session.location == s.location
    ensures r.redirect.Some? ==> r.view.success && r.redirect == Some("/")
  {
    match result
    case Diverged => Effect(v, s, None)
    case Threw(e) => Caught(v, s, e, apiUrl, resetLoading)
    case Returned(data) =>
      if data.JNull? then Caught(v, s, NullMember, apiUrl, resetLoading)
      else if Truthy(Member(data, "accessToken")) then
        var st := SetJson(SetItem(s.store, TokenKey, Member(data, "accessToken")), UserKey, Member(data, "user"));
        Effect(View(Cleared, !resetLoading, true), s.(store := st), Some("/"))
      else Caught(v, s, PlainError(NoTokenText), apiUrl, resetLoading)
  }

  /** `handleRegister`; `resetLoading` says whether the form is unlocked once
      the call settles. The request goes to the same base URL the
      connection-failure text names, both read from `NEXT_PUBLIC_API_URL`. */
  function Submit(net: Api.Network, s: Api.Session, f: Form, v: View, env: Option<string>, resetLoading: bool): (r: Effect)
    ensures Validate(f).Some? ==> r == Effect(v.(error := Says(Validate(f).value)), s, None)
    ensures Validate(f).None? ==>
      && r.session.log == s.log + [Api.RegisterFetch(Api.ApiUrl(env), f.email, f.password, Trim(f.name))]
      && r.view.loading == !resetLoading
      && (r.redirect.Some? <==> Registered(Api.Register(Api.ApiUrl(env), net, s, f.email, f.password, Trim(f.name)).outcome))
      && (r.redirect.Some? ==> r.view == View(Cleared, !resetLoading, true))
      && (r.redirect.None? ==> r.view == View(CannotConnect(Api.ApiUrl(env)), !resetLoading, v.success))
  {
    match Validate(f)
    case Some(m) => Effect(v.(error := Says(m)), s, None)
    case None =>
      var step := Api.Register(Api.ApiUrl(env), net, s, f.email, f.password, Trim(f.name));
      FinishReportsConnection(View(Cleared, true, v.success), step.session, step.outcome, Api.ApiUrl(env), resetLoading);
      Finish(View(Cleared, true, v.success), step.session, step.outcome, Api.ApiUrl(env), resetLoading)
  }

  /** `handleRegister` as written: nothing ever sets `loading` back. */
  function HandleRegisterAsWritten(net: Api.Network, s: Api.Session, f: Form, v: View, env: Option<string>): (r: Effect)
    ensures Validate(f).Some? ==> r == Effect(v.(error := Says(Validate(f).value)), s, None)
    ensures Validate(f).None? ==>
      && r.session.log == s.log + [Api.RegisterFetch(Api.ApiUrl(env), f.email, f.password, Trim(f.name))]
      && r.view.loading
  {
    Submit(net, s, f, v, env, false)
  }

  /** `handleRegister` with `setLoading(false)` in a `finally` block. */
  function HandleRegister(net: Api.Network, s: Api.Session, f: Form, v: View, env: Option<string>): (r: Effect)
    ensures Validate(f).Some? ==> r == Effect(v.(error := Says(Validate(f).value)), s, None)
    ensures Validate(f).None? ==>
      && r.session.log == s.log + [Api.RegisterFetch(Api.ApiUrl(env), f.email, f.password, Trim(f.name))]
      && !r.view.loading
      && (r.redirect.Some? <==> Registered(Api.Register(Api.ApiUrl(env), net, s, f.email, f.password, Trim(f.name)).outcome))
      && (r.redirect.Some? ==> r.view.success && r.view.error == Cleared)
      && (r.redirect.None? ==> r.view.error == CannotConnect(Api.ApiUrl(env)) && r.view.success == v.success)
  {
    Submit(net, s, f, v, env, true)
  }

  // ----------------------------------------------------------------- lemmas

  /** The chain of checks is a first-failure-wins search over the checks in
      their order. */
  lemma ValidateIsFirstFailure(f: Form)
    ensures Validate(f) == FirstFailure(Checks(f))
  {
    var c := Checks(f);
    assert c[4..][1..] == [];
    assert FirstFailure(c[4..]) == if c[4].0 then None else Some(c[4].1);
    assert c[3..][1..] == c[4..];
    assert FirstFailure(c[3..]) == if !c[3].0 then Some(c[3].1) else FirstFailure(c[4..]);
    assert c[2..][1..] == c[3..];
    assert FirstFailure(c[2..]) == if !c[2].0 then Some(c[2].1) else FirstFailure(c[3..]);
    assert c[1..][1..] == c[2..];
    assert FirstFailure(c[1..]) == if !c[1].0 then Some(c[1].1) else FirstFailure(c[2..]);
  }

  /** A form goes through exactly when every field is filled, the passwords
      agree and have at least six UTF-16 units, the email holds an `@` and a
      `.` (anywhere, in any order), and the trimmed name has at least two
      units. */
  lemma ValidateAcceptsIff(f: Form)
    ensures Validate(f).None? <==>
      && AllFilled(f)
      && f.password == f.confirmPassword
      && Utf16Length(f.password) >= 6
      && '@' in f.email && '.' in f.email
      && Utf16Length(Trim(f.name)) >= 2
  {
    IncludesChar(f.email, '@');
    IncludesChar(f.email, '.');
  }

  /** An empty field wins over every other complaint. */
  lemma EmptyFieldWins(f: Form)
    requires f.email == "" || f.password == "" || f.confirmPassword == "" || f.name == ""
    ensures Validate(f) == Some(AllFieldsText)
  {
  }

  /** A name of white space only is not empty, so it gets past the first
      check, and is refused as too short once the others pass. */
  lemma WhitespaceNameRejected(f: Form)
    requires f.name != "" && forall i :: 0 <= i < |f.name| ==> IsSpace(f.name[i])
    requires f.email != "" && f.password != "" && f.password == f.confirmPassword && Utf16Length(f.password) >= 6
    requires '@' in f.email && '.' in f.email
    ensures Validate(f) == Some(ShortNameText)
  {
    IncludesChar(f.email, '@');
    IncludesChar(f.email, '.');
  }

  /** A refused form shows the check's message and sends nothing. */
  lemma InvalidFormSendsNothing(net: Api.Network, s: Api.Session, f: Form, v: View, env: Option<string>)
    requires Validate(f).Some?
    ensures HandleRegister(net, s, f, v, env) == Effect(v.(error := Says(Validate(f).value)), s, None)
    ensures HandleRegisterAsWritten(net, s, f, v, env) == Effect(v.(error := Says(Validate(f).value)), s, None)
  {
  }

  /** An accepted form is sent with the trimmed name, as the only fetch. */
  lemma SendsTrimmedName(net: Api.Network, s: Api.Session, f: Form, v: View, env: Option<string>)
    requires Validate(f).None?
    ensures HandleRegister(net, s, f, v, env).session.log == s.log + [Api.RegisterFetch(Api.ApiUrl(env), f.email, f.password, Trim(f.name))]
  {
    Api.AuthErrorShapes(Api.ApiUrl(env), net, s, f.email, f.password, Trim(f.name));
    var step := Api.Register(Api.ApiUrl(env), net, s, f.email, f.password, Trim(f.name));
    assert HandleRegister(net, s, f, v, env) == Finish(View(Cleared, true, v.success), step.session, step.outcome, Api.ApiUrl(env), true);
  }

  /** A response with a truthy `accessToken` stores it and the user, leaves
      any refresh token as it was (the page never stores one), marks the
      form as done and schedules the move to the dashboard. */
  lemma StoresSession(s: Api.Session, data: Json, apiUrl: string, resetLoading: bool, v: View)
    requires data != JNull && Truthy(Member(data, "accessToken"))
    ensures var r := Finish(v, s, Api.Returned(data), apiUrl, resetLoading);
      && r.view.success && r.view.error == Cleared && r.redirect == Some("/")
      && r.session.store[TokenKey] == Raw(ToStr(Member(data, "accessToken")))
      && (Member(data, "user").Some? ==> r.session.store[UserKey] == Encoded(Member(data, "user").value))
      && (RefreshTokenKey in r.session.store <==> RefreshTokenKey in s.store)
      && (RefreshTokenKey in s.store ==> r.session.store[RefreshTokenKey] == s.store[RefreshTokenKey])
      && r.session.log == s.log
  {
  }

  /** The status table of the catch block. */
  lemma StatusTable(m: string, status: int, data: Value, apiUrl: string)
    ensures var e := ApiError(ClientClass, m, status, data);
      && (status == 409 ==> ErrorMessage(e, apiUrl) == Some(Says(ExistsText)))
      && (status == 400 ==> ErrorMessage(e, apiUrl) == Some(Says(BadDataText)))
      && (status == 422 && data.Some? && data.value.JObj? && Member(data.value, "errors").Some?
            && Member(data.value, "errors").value.JArr? ==>
            ErrorMessage(e, apiUrl) == Some(Says(JoinItems(Member(data.value, "errors").value.items, ", "))))
      && (status == 422 && (data.None? || !data.value.JObj? || Member(data.value, "errors").None?) ==>
            ErrorMessage(e, apiUrl) == Some(Says(ValidationText)))
      && (status == 422 && data.Some? && data.value.JObj? && Member(data.value, "errors").Some?
            && !Member(data.value, "errors").value.JArr? ==>
            ErrorMessage(e, apiUrl).None?)
  {
  }

  /** The connection-failure text starts with its lead-in, names the API
      base URL right after it, and goes on with the list of likely causes. */
  lemma ConnectionTextNamesUrl(apiUrl: string)
    ensures var t := Shown(CannotConnect(apiUrl));
      && t[..|ConnectionLead|] == ConnectionLead
      && t[|ConnectionLead|..|ConnectionLead| + |apiUrl|] == apiUrl
      && t[|ConnectionLead| + |apiUrl|..] == ConnectionHints
      && Includes(t, apiUrl)
  {
    ConcatParts(ConnectionLead, apiUrl, ConnectionHints);
  }

  /** A plain `Error` never has a status, so whatever its message it is
      reported as a failure to reach the server. */
  lemma StatuslessErrorsReportConnection(m: string, apiUrl: string)
    ensures Diagnose(PlainError(m)) == NoConnection
    ensures ErrorMessage(PlainError(m), apiUrl) == Some(CannotConnect(apiUrl))
  {
  }

  /** Whatever the server does, an accepted form either registers or shows
      the connection-failure text: `api.register` throws only plain errors,
      and a response without a token becomes one too. */
  lemma FailuresReportConnection(net: Api.Network, s: Api.Session, f: Form, v: View, env: Option<string>)
    requires Validate(f).None?
    ensures var r := HandleRegister(net, s, f, v, env);
      r.view.success || r.view.error == CannotConnect(Api.ApiUrl(env))
  {
    Api.AuthErrorShapes(Api.ApiUrl(env), net, s, f.email, f.password, Trim(f.name));
    var step := Api.Register(Api.ApiUrl(env), net, s, f.email, f.password, Trim(f.name));
    FinishReportsConnection(View(Cleared, true, v.success), step.session, step.outcome, Api.ApiUrl(env), true);
  }

  lemma FinishReportsConnection(v: View, s: Api.Session, result: Api.Outcome, apiUrl: string, resetLoading: bool)
    requires !result.Diverged? && (result.Threw? ==> result.error.PlainError?)
    ensures var r := Finish(v, s, result, apiUrl, resetLoading);
      && (r.redirect.Some? <==> Registered(result))
      && (r.redirect.Some? ==> r.view == View(Cleared, !resetLoading, true))
      && (r.redirect.None? ==> r.view == View(CannotConnect(apiUrl), !resetLoading, v.success))
  {
    if result.Threw? {
      CaughtPlainReportsConnection(v, s, result.error.message, apiUrl, resetLoading);
    } else if result.value.JNull? {
      CaughtPlainReportsConnection(v, s, NullMember.message, apiUrl, resetLoading);
    } else if !Truthy(Member(result.value, "accessToken")) {
      CaughtPlainReportsConnection(v, s, NoTokenText, apiUrl, resetLoading);
    }
  }

  /** The catch block turns any plain error into the connection-failure
      text. */
  lemma CaughtPlainReportsConnection(v: View, s: Api.Session, m: string, apiUrl: string, resetLoading: bool)
    ensures Caught(v, s, PlainError(m), apiUrl, resetLoading).view == View(CannotConnect(apiUrl), !resetLoading, v.success)
  {
    StatuslessErrorsReportConnection(m, apiUrl);
  }

  /** As written, a failed registration leaves the form locked: `loading`
      stays true, and every input and the button stay disabled. */
  lemma FailedRegistrationLocksForm(net: Api.Network, s: Api.Session, f: Form, v: View, env: Option<string>)
    requires Validate(f).None? && net(|s.log|) == Api.Unreachable
    ensures var r := HandleRegisterAsWritten(net, s, f, v, env);
      r.view == View(CannotConnect(Api.ApiUrl(env)), true, v.success)
  {
    var step := Api.Register(Api.ApiUrl(env), net, s, f.email, f.password, Trim(f.name));
    assert step.outcome == Api.Threw(FetchFailed);
    CaughtPlainReportsConnection(View(Cleared, true, v.success), step.session, FetchFailed.message, Api.ApiUrl(env), false);
    assert HandleRegisterAsWritten(net, s, f, v, env)
        == Caught(View(Cleared, true, v.success), step.session, FetchFailed, Api.ApiUrl(env), false);
  }

  /** With the form unlocked in a `finally` block, every settled attempt,
      failed or not, leaves `loading` off. */
  lemma FailedRegistrationUnlocksForm(net: Api.Network, s: Api.Session, f: Form, v: View, env: Option<string>)
    requires Validate(f).None?
    ensures !HandleRegister(net, s, f, v, env).view.loading
  {
    Api.AuthErrorShapes(Api.ApiUrl(env), net, s, f.email, f.password, Trim(f.name));
    var step := Api.Register(Api.ApiUrl(env), net, s, f.email, f.password, Trim(f.name));
    FinishReportsConnection(View(Cleared, true, v.success), step.session, step.outcome, Api.ApiUrl(env), true);
  }
}

=== FILE: storage.dfy ===
/**
 The browser's `localStorage` as a finite map from keys to stored texts.
 A text written through `JSON.stringify` is remembered as the value it
 encodes, so that reading it back with `JSON.parse` is exact; any other
 text is kept verbatim.
 */
module Storage {
  import opened Js

  datatype Item =
    | Raw(text: string)      // `setItem(k, v)` stores `String(v)`
    | Encoded(value: Json)   // `setItem(k, JSON.stringify(v))`

  type Store = map<string, Item>

  const TokenKey := "token"
  const UserKey := "user"
  const RefreshTokenKey := "refreshToken"

  /** The text an item holds. */
  function ItemText(item: Item): string
  {
    match item
    case Raw(t) => t
    case Encoded(v) => Serialize(v)
  }

  /** `localStorage.getItem(key)`: `None` plays `null`. */
  function GetItem(st: Store, key: string): (r: Option<string>)
    ensures r.Some? <==> key in st
    ensures key in st ==> r.value == ItemText(st[key])
  {
    if key in st then Some(ItemText(st[key])) else None
  }

  /** `localStorage.setItem(key, v)`, which stores `String(v)`. */
  function SetItem(st: Store, key: string, v: Value): (r: Store)
    ensures key in r && r[key] == Raw(ToStr(v))
    ensures forall k :: k != key ==> (k in r <==> k in st) && (k in st ==> r[k] == st[k])
  {
    st[key := Raw(ToStr(v))]
  }

  /** `localStorage.setItem(key, JSON.stringify(v))`. `JSON.stringify(undefined)`
      is `undefined`, which `setItem` stores as the text "undefined". */
  function SetJson(st: Store, key: string, v: Value): (r: Store)
    ensures key in r
    ensures v.Some? ==> r[key] == Encoded(v.value)
    ensures v.None? ==> r[key] == Raw("undefined")
    ensures forall k :: k != key ==> (k in r <==> k in st) && (k in st ==> r[k] == st[k])
  {
    st[key := if v.Some? then Encoded(v.value) else Raw("undefined")]
  }

  /** Removes the access token and the cached user, as every sign-out path of
      the console does; the refresh token and every other key survive. */
  function ClearSession(st: Store): (r: Store)
    ensures TokenKey !in r && UserKey !in r
    ensures forall k :: k != TokenKey && k != UserKey ==> (k in r <==> k in st) && (k in st ==> r[k] == st[k])
  {
    st - {TokenKey, UserKey}
  }

  /** Whether the stored token is truthy, as `if (token)` tests it. */
  predicate HasToken(st: Store)
  {
    var t := GetItem(st, TokenKey);
    t.Some? && t.value != ""
  }

  /** `JSON.parse` of a verbatim text. Only the keyword literals are
      recognised; any other raw text is treated as malformed. */
  function ParseRaw(t: string): Option<Json>
  {
    if t == "null" then Some(JNull)
    else if t == "true" then Some(JBool(true))
    else if t == "false" then Some(JBool(false))
    else None
  }

  /** `JSON.parse(localStorage.getItem('user') || '{}')`; `None` when it throws. */
  function ParseStoredUser(st: Store): (r: Option<Json>)
    ensures UserKey !in st ==> r == Some(EmptyObject)
    ensures UserKey in st && st[UserKey].Encoded? ==> r == Some(st[UserKey].value)
    ensures UserKey in st && st[UserKey] == Raw("undefined") ==> r.None?
  {
    var text := GetItem(st, UserKey);
    if text.None? || text.value == "" then Some(EmptyObject)
    else
      match st[UserKey]
      case Encoded(v) =>
        assert Serialize(v) != "" by { SerializeNonEmpty(v); }
        Some(v)
      case Raw(t) => ParseRaw(t)
  }

  lemma SerializeNonEmpty(v: Json)
    ensures Serialize(v) != ""
  {
    match v
    case JNum(n) =>
    case JStr(s) =>
      assert Serialize(v)[0] == '"';
    case JArr(items) =>
      assert Serialize(v)[0] == '[';
    case JObj(fields) =>
      assert Serialize(v)[0] == '{';
    case _ =>
  }
}

=== FILE: users.dfy ===
/**
 The users screen: loading the list, deleting a user, flipping a user's
 role between `user` and `admin`, and the search box.
 */
module UsersPage {
  import opened Js
  import Api
  import Lists

  datatype Role = Regular | Admin

  datatype User = User(id: string, email: string, name: Option<string>, role: Role, createdAt: string)

  const DeleteFailedText := "Не удалось удалить пользователя"
  const ToggleFailedText := "Не удалось изменить роль пользователя"

  /** The list on screen, the session after the calls made, and the alert shown. */
  datatype Effect = Effect(users: seq<User>, session: Api.Session, alert: Option<string>)

  /** The role's wire name. */
  function RoleName(r: Role): string
  {
    match r
    case Regular => "user"
    case Admin => "admin"
  }

  /** `user.role === 'admin' ? 'user' : 'admin'`. */
  function Toggle(r: Role): (t: Role)
    ensures t != r
  {
    if r == Admin then Regular else Admin
  }

  /** `fetchUsers`: whatever the load yields, with each row taken as a user
      (`cast` plays the unchecked TypeScript type assertion). */
  function FetchUsers(base: string, net: Api.Network, s: Api.Session, cast: Json -> User): (r: Effect)
    ensures var rows := Api.ListRows(Api.GetList(base, net, s, Api.UsersEndpoint, "users").outcome);
      && |r.users| == |rows|
      && forall i :: 0 <= i < |rows| ==> r.users[i] == cast(rows[i])
    ensures r.alert.None?
  {
    var step := Api.GetList(base, net, s, Api.UsersEndpoint, "users");
    Effect(Lists.Map(Api.ListRows(step.outcome), cast), step.session, None)
  }

  /** Every user whose id is not `id`, in order. */
  function WithoutId(users: seq<User>, id: string): (r: seq<User>)
    ensures forall u :: u in r <==> u in users && u.id != id
  {
    Lists.Filter(users, (u: User) => u.id != id)
  }

  /** Every user with id `id` gets `role`; everybody else is left alone. */
  function WithRole(users: seq<User>, id: string, role: Role): (r: seq<User>)
    ensures |r| == |users|
    ensures forall i :: 0 <= i < |users| && users[i].id != id ==> r[i] == users[i]
    ensures forall i :: 0 <= i < |users| && users[i].id == id ==> r[i] == users[i].(role := role)
  {
    Lists.Map(users, (u: User) => if u.id == id then u.(role := role) else u)
  }

  /** `deleteUser(id)`: nothing at all happens unless the confirm is accepted;
      then the user is dropped from the list once the server agrees, and an
      alert is shown otherwise. */
  function DeleteUser(base: string, net: Api.Network, s: Api.Session, users: seq<User>, id: string, confirmed: bool): (r: Effect)
    ensures !confirmed ==> r == Effect(users, s, None)
    ensures confirmed ==> |r.session.log| > |s.log| && r.session.log[|s.log|].url == base + Api.ItemEndpoint(Api.UsersEndpoint, id)
    ensures confirmed ==> r.session == Api.Remove(base, net, s, Api.ItemEndpoint(Api.UsersEndpoint, id)).session
    ensures confirmed ==> r.session.log[|s.log|].init.verb == Some("DELETE")
    ensures confirmed ==> (r.alert.None? <==> Api.Remove(base, net, s, Api.ItemEndpoint(Api.UsersEndpoint, id)).outcome.Returned?)
    ensures confirmed && r.alert.None? ==> r.users == WithoutId(users, id)
    ensures r.alert.Some? ==> r.users == users && r.alert == Some(DeleteFailedText)
  {
    if !confirmed then Effect(users, s, None)
    else
      var step := Api.Remove(base, net, s, Api.ItemEndpoint(Api.UsersEndpoint, id));
      if step.outcome.Returned? then Effect(WithoutId(users, id), step.session, None)
      else Effect(users, step.session, Some(DeleteFailedText))
  }

  /** `toggleAdmin(user)`: asks the server for the flipped role of the user
      clicked, then gives every entry with that id the flipped role. */
  function ToggleAdmin(base: string, net: Api.Network, s: Api.Session, users: seq<User>, target: User): (r: Effect)
    ensures |r.session.log| > |s.log|
    ensures var f := r.session.log[|s.log|];
      f.url == base + Api.ItemEndpoint(Api.UsersEndpoint, target.id) && f.init.verb == Some("PUT")
        && f.init.body == Some(JStr(Serialize(JObj([("role", JStr(RoleName(Toggle(target.role))))]))))
    ensures r.alert.None? <==>
      Api.Mutate(base, net, s, Api.ItemEndpoint(Api.UsersEndpoint, target.id), "PUT",
                 Some(JObj([("role", JStr(RoleName(Toggle(target.role))))]))).outcome.Returned?
    ensures r.session ==
      Api.Mutate(base, net, s, Api.ItemEndpoint(Api.UsersEndpoint, target.id), "PUT",
                 Some(JObj([("role", JStr(RoleName(Toggle(target.role))))]))).session
    ensures r.alert.None? ==> r.users == WithRole(users, target.id, Toggle(target.role))
    ensures r.alert.Some? ==> r.users == users && r.alert == Some(ToggleFailedText)
  {
    var data := JObj([("role", JStr(RoleName(Toggle(target.role))))]);
    var step := Api.Mutate(base, net, s, Api.ItemEndpoint(Api.UsersEndpoint, target.id), "PUT", Some(data));
    if step.outcome.Returned? then Effect(WithRole(users, target.id, Toggle(target.role)), step.session, None)
    else Effect(users, step.session, Some(ToggleFailedText))
  }

  /** The search test: the lowercased email, or the lowercased name when it
      is non-empty, contains the lowercased query. */
  predicate Matches(u: User, search: string)
  {
    var q := Lower(search);
    || Includes(Lower(u.email), q)
    || (u.name.Some? && u.name.value != "" && Includes(Lower(u.name.value), q))
  }

  function FilteredUsers(users: seq<User>, search: string): (r: seq<User>)
    ensures forall u :: u in r <==> u in users && Matches(u, search)
  {
    Lists.Filter(users, (u: User) => Matches(u, search))
  }

  /** Flipping a role twice gives it back, and a flip always changes it. */
  lemma ToggleInvolution(r: Role)
    ensures Toggle(Toggle(r)) == r
    ensures Toggle(r) != r
    ensures RoleName(Toggle(r)) != RoleName(r)
  {
  }

  /** Deleting keeps every other user, in order, and drops exactly as many
      entries as carry the id. */
  lemma DeleteKeepsOrder(users: seq<User>, id: string)
    ensures Lists.IsSubsequence(WithoutId(users, id), users)
    ensures |WithoutId(users, id)| + Lists.Count(users, (u: User) => u.id == id) == |users|
  {
    Lists.FilterIsSubsequence(users, (u: User) => u.id != id);
    Lists.FilterCount(users, (u: User) => u.id != id);
    Lists.CountComplement(users, (u: User) => u.id != id, (u: User) => u.id == id);
  }

  /** Two flips of the same user restore the list, provided every entry with
      that id had the clicked user's role to begin with. */
  lemma ToggleTwiceRestores(users: seq<User>, target: User)
    requires forall i :: 0 <= i < |users| && users[i].id == target.id ==> users[i].role == target.role
    ensures WithRole(WithRole(users, target.id, Toggle(target.role)), target.id, Toggle(Toggle(target.role))) == users
  {
    var once := WithRole(users, target.id, Toggle(target.role));
    var twice := WithRole(once, target.id, Toggle(Toggle(target.role)));
    assert forall i :: 0 <= i < |users| ==> twice[i] == users[i];
  }

  /** The search result keeps the matching users in their order, each entry
      as often as it is listed, and an empty query keeps everyone. */
  lemma SearchKeepsOrder(users: seq<User>, search: string)
    ensures Lists.IsSubsequence(FilteredUsers(users, search), users)
    ensures |FilteredUsers(users, search)| == Lists.Count(users, (u: User) => Matches(u, search))
    ensures search == "" ==> FilteredUsers(users, search) == users
  {
    Lists.FilterIsSubsequence(users, (u: User) => Matches(u, search));
    Lists.FilterCount(users, (u: User) => Matches(u, search));
    if search == "" {
      forall i | 0 <= i < |users| ensures Matches(users[i], search) {
        IncludesEmpty(Lower(users[i].email));
      }
      Lists.FilterAll(users, (u: User) => Matches(u, search));
    }
  }
}
